=== FILE: README.md ===
# Project Vault ledger engine, in Dafny

Project Vault is a desktop app for tracking shared money. Each project has a
balance, members with the amount each has spent, and a log of signed entries:

- an **injection** adds funds;
- an **expense** removes funds and is charged either to one member or split
  evenly over all members of the project;
- **void** deletes a log and reverses its effect;
- **decommission** deletes a member, optionally refunding what the member
  spent.

This project models the ledger engine of `src/store/useVault.ts` and the two
small pure helpers of the page around it:

- the member audit filters and per-row amounts (`src/app/page.tsx`,
  `src/lib/pdf.ts`);
- the command dispatch of `handleExecute`.

The model is organised in layers:

- `wrappers.dfy`, `seqs.dfy`: `Option`, and sequence filtering with its
  lemmas (order, distinct keys, concatenation).
- `store.dfy`: the three tables (`projects`, `members`, `logs`), the SQL
  statements the engine issues, and all-or-nothing transactions. It also
  holds the aggregates the invariant talks about: the log sum of a project,
  its member count and its spent total.
- `read_model.dfy`: the `fetchProjects` projection that groups the rows
  into `Project -> members[], logs[]`, with the logs newest first.
- `engine.dfy`: the client state (projection, active id, the `isProcessing`
  latch, the saved `vault_active_id`) and every store operation as a pure
  function. Fresh ids, the clock and store failures are parameters: a `fault`
  flag means some statement of the call fails.
- `ledger.dfy`: the global invariant, that every project's balance equals
  the sum of its logs' values, under unique keys. It proves that every
  operation and every sequence of operations preserves the invariant. It
  also proves that voiding a fresh expense restores the store exactly, and
  that expense attribution is exact.
- `audit.dfy`: the member audit list of the page, the member PDF rows of the
  page and of `pdf.ts`, and how they relate to the engine's split.
- `dispatch.dfy`: JavaScript `parseInt` on the typed amount with its dots
  removed, the modal form, and the call `handleExecute` makes.

Money is `real`, so arithmetic is exact. Timestamps are milliseconds, or
`Invalid` where JavaScript would produce NaN.

## Model

| member | source | states |
|---|---|---|
| Store.FindLog | src/store/useVault.ts:183-186 | The log found has the requested id and project and is in the table. Nothing is found exactly when no log has both. |
| Store.FindMember | src/store/useVault.ts:229-232 | The member found has the requested id and is in the table. Nothing is found exactly when no member has that id. |
| Store.LogTotalWithout | src/store/useVault.ts:210 | Deleting a log by its unique id lowers its project's log sum by exactly the log's value. Other projects' sums are unchanged. |
| Store.LogTotalOtherProject | src/lib/db.ts:62 | The cascade that removes one project's logs leaves every other project's log sum unchanged. |
| Store.SpentAfterProjectCredit | src/store/useVault.ts:153 | Crediting every member of a project with `d` raises that project's spent total by `n` times `d`, where `n` is its member count. |
| Store.SpentAfterMemberCredit | src/store/useVault.ts:149 | Crediting one member id, under unique ids, raises the spent total of that member's project by `d` and no other project's. |
| ReadModel.SortNewestFirst | src/store/useVault.ts:59 | `ORDER BY timestamp DESC` returns a permutation of the logs, in non-increasing time order. |
| ReadModel.Projection | src/store/useVault.ts:62-85 | There is one view per project row, with the same id, name and balance. Its members are exactly the member rows of that project, with fields renamed, and so are its logs. The logs are newest first. |
| Engine.FetchProjects | src/store/useVault.ts:50-92 | Re-reads the projection without touching the store. A saved id becomes active if some project has it. The active id changes only in that case. |
| Engine.RememberedIsRestored | src/store/useVault.ts:99-106 | Choosing an existing project and then losing the active id (a reload) gives the same project back on the next fetch. Choosing none forgets the saved id, so a fetch restores nothing. |
| Engine.AddExpense | src/store/useVault.ts:126-174 | Does nothing while busy; a failure leaves the store unchanged. Otherwise the project balance drops by `amount` and each member gains its share. Exactly one log is appended: value `-amount`, EXPENSE iff `amount > 0`, the given member or null, and ` (SHARED_SPLIT)` appended to the context only on a shared expense. The latch is released, and the active project changes only by restoring the saved id. |
| Engine.DeleteLog | src/store/useVault.ts:177-221 | Does nothing while busy. A missing log or a failure leaves the store unchanged. Otherwise the balance loses the log's value and the members get the reversal. The log table is the old one with that log filtered out; every other row stays, once and in order. The latch is released, and the active project changes only by restoring the saved id. |
| Engine.DeleteMember | src/store/useVault.ts:223-255 | Does nothing while busy. A missing member or a failure leaves the store unchanged. Otherwise the balance gains the refund (`totalSpent` or 0). The member table is the old one with that member filtered out; every other row stays, once and in order. One INJECTION log is appended with the refund, null member and `UNIT_DECOMMISSIONED: <name>`. The active project changes only by restoring the saved id. |
| Engine.AddProject | src/store/useVault.ts:108-114 | Appends a project with balance 0 and makes it the active, saved one. A failure changes nothing. |
| Engine.AddMember | src/store/useVault.ts:116-123 | Appends a member with nothing spent, joined now; the active project changes only by restoring the saved id. A failure changes nothing. |
| Engine.DeleteProject | src/store/useVault.ts:257-264 | Each table is the old one with the project, and by cascade its members and logs, filtered out; every other row stays, once and in order. Afterwards the deleted id is never active. The active id is cleared only if it was the deleted project, unless a saved id is restored. |
| Engine.AddExpenseEffect | src/store/useVault.ts:143-162 | The three statements of an expense, taken together, debit the balance, credit each member with its share and append the log. |
| Ledger.EmptyLedger | src/lib/db.ts:29-65 | The empty store satisfies the invariant. |
| Ledger.AddExpenseKeepsLedger | src/store/useVault.ts:143-161 | `addExpense` keeps every project's balance equal to the sum of its logs' values, with keys unique. |
| Ledger.DeleteLogKeepsLedger | src/store/useVault.ts:192-210 | `deleteLog` keeps the invariant. |
| Ledger.DecommissionStatementsKeepLedger | src/store/useVault.ts:236-246 | The decommission transaction keeps the invariant: the refund credited to the balance is logged with the same value, and removing a member leaves the keys unique. |
| Ledger.DeleteMemberKeepsLedger | src/store/useVault.ts:238-244 | `deleteMember` keeps the invariant, since the refund is paired with a log of the same value. |
| Ledger.AddProjectKeepsLedger | src/store/useVault.ts:111 | `addProject` keeps the invariant, since a new project has balance 0 and no logs. |
| Ledger.AddMemberKeepsLedger | src/store/useVault.ts:118-121 | `addMember` keeps the invariant. |
| Ledger.DeleteProjectKeepsLedger | src/store/useVault.ts:257-260 | `deleteProject` with its cascade keeps the invariant for the remaining projects. |
| Ledger.RunKeepsLedger | src/store/useVault.ts:108-264 | Any sequence of engine calls whose minted ids are fresh keeps the invariant. The processing latch is free after every completed call. |
| Ledger.VoidUndoesExpense | src/store/useVault.ts:126-221 | Voiding the log that `addExpense` just wrote restores every balance, every member total and the log table exactly. |
| Ledger.VoidUndoesExpenseStatements | src/store/useVault.ts:140-210 | At the store level, the void statements applied after a fresh expense's statements find exactly the log just written and give back the original tables. |
| Ledger.SharedSplitStatements | src/store/useVault.ts:150-154 | At the store level, crediting `amount / n` to each of the `n > 0` members of a project adds exactly `amount` to its spent total. |
| Ledger.SharedSplitIsFair | src/store/useVault.ts:150-154 | A shared expense over `n > 0` members raises the project's spent total by exactly the amount. |
| Ledger.DirectChargeIsWhole | src/store/useVault.ts:147-149 | A direct expense raises the spent total of the charged member's project by exactly the amount, and no other project's. |
| Ledger.DirectChargeStatements | src/store/useVault.ts:147-149 | At the store level, with unique member ids, a direct charge adds the amount to the charged member's project total and nothing to any other project's. |
| Audit.MemberLogs | src/app/page.tsx:52-63 | Empty without an active project or a selected member of it. Otherwise it is the project's log list filtered by the inclusion rule `Belongs`: the member's own logs, at any time, plus the shared EXPENSE logs whose time is valid and no earlier than 2000 ms before the member joined. Each listed once, in the project's order, so newest first stays newest first. Injections and other members' logs never appear. |
| Audit.ReportLogs | src/lib/pdf.ts:92-95 | The member PDF list is the project's log list filtered by the same `Belongs` rule, each log once and in order. |
| Audit.GuardIsRedundant | src/app/page.tsx:56-59 | The page's explicit NaN guard changes nothing, so the panel and the PDF list identical logs. |
| Audit.PersonalBurn | src/lib/pdf.ts:100-102 | A direct log burns `-value`. A shared log burns `-value` split over its participant count, or the whole `-value` when the count is absent or zero. |
| Audit.MemberAuditRows | src/lib/pdf.ts:97-109 | One row per listed log: SHARED iff the log has no member. Because the logs carry no participant count, every amount is the whole `-value`. |
| Audit.ExportAmount | src/app/page.tsx:118 | A direct row shows `-value`. A shared row shows `-value` split over the current member count, or the whole of it when there are no members. |
| Audit.ExportMatchesCharge | src/app/page.tsx:118 | While membership is unchanged, the page export shows each member exactly the share `addExpense` charged it. The `pdf.ts` burn shows `n` times that share. |
| Audit.ExportRowsMatchCharge | src/app/page.tsx:115-118 | In the exported member table, the row of a fresh shared expense is marked SHARED and shows exactly the share `addExpense` charged the member, while membership is unchanged. |
| Dispatch.StripDotsPiecewise | src/app/page.tsx:77 | Stripping a concatenation strips each part; a dot is dropped and any other character is kept. So the result is the non-dot characters of the input, in order. |
| Dispatch.NoDigitIsZero | src/app/page.tsx:78 | An amount with no decimal digit becomes 0. |
| Dispatch.DotIgnored | src/app/page.tsx:77 | A dot anywhere in the typed amount does not change its value. |
| Dispatch.GroupedDigits | src/app/page.tsx:77 | Removing the dots from an amount written with thousands separators leaves a non-empty run of decimal digits whose value is the amount. |
| Dispatch.ParseDigits | src/app/page.tsx:78 | `parseInt` of a non-empty run of decimal digits is its decimal value. |
| Dispatch.ParseNegatedDigits | src/app/page.tsx:78 | `parseInt` of `-` followed by a non-empty run of decimal digits is the negated value. |
| Dispatch.GroupedRoundTrip | src/app/page.tsx:77-78 | An amount typed with thousands separators (`1.250.000`, or with a leading `-`) reads back as that number. |
| Dispatch.ClosedFormCallsNothing | src/app/page.tsx:66-90 | After the modals close, executing again makes no call, so a submission is not repeated. |
| Dispatch.CloseModalsLatched | src/app/page.tsx:66-70 | A close while busy changes nothing. Closing twice is the same as closing once. |
| Dispatch.Execute | src/app/page.tsx:72-90 | Does nothing while busy, or without an active project unless creating one. Otherwise each call is made exactly when its modal asks for it: a named project; a named operative with role `UNIT` when none is typed; an injection of `-amount` with no member and context `Initial Injection` by default; an expense of `+amount` for the chosen member and context `Operation Log` by default. A zero amount or a missing name calls nothing. The modals close unless the call rejects. |
| Dispatch.DispatchMovesBalance | src/app/page.tsx:85-86 | A dispatched injection raises the active project's balance by the typed amount, and a dispatched expense lowers it by that amount. |

## Where the code and its own comments differ

The model follows the code in each case.

- **No participant count.** The comments at `src/lib/pdf.ts:101` and `src/components/modals/MemberAuditModal.tsx:76` say the split should divide by the log's `participant_count`, for accuracy. The code never writes that field: the insert at `src/store/useVault.ts:160` and the table at `src/lib/db.ts:52-65` have no such column, and the projection drops it. So `pdf.ts`'s `participant_count || 1` is always 1, and a shared row's personal burn is the whole `-value` (`Audit.MemberAuditRows`).
- **Void uses current membership.** Voiding a shared expense divides by the *current* member count (`src/store/useVault.ts:201-204`), not by a stored one. `Ledger.VoidUndoesExpense` therefore holds when membership has not changed in between.
- **Decommission entries.** These are typed `INJECTION` with a null member (`src/store/useVault.ts:241-244`), so they never enter a member's audit list.

## Left out

- Store plumbing is not modelled: loading the Tauri SQL plugin, the schema migration in `src/lib/db.ts`, and console logging. Reads are assumed to succeed, so the `FETCH_FAILED` path and the `isLoading` flag (display only) are not modelled.
- `localStorage`, `crypto.randomUUID()` and `new Date()` become parameters: the saved id, fresh ids with a precondition that they are unused, and the current time in milliseconds.
- A failing `ROLLBACK` is not modelled. It is caught and ignored, and the model treats every transaction as all-or-nothing.
- Foreign keys are not enforced on insert. `ON DELETE SET NULL` on `logs.member_id` is not applied: a deleted member's id stays on its logs, and voiding such a log updates no member, since no member has that id.
- JavaScript numbers are IEEE doubles. The model uses exact `real` and exact integers, so it makes no claim about rounding or about `parseInt` beyond 2^53.
- Dispatch.ParseInt: recognises the ECMAScript white-space set, one sign, a `0x` prefix and the longest digit run. It does not model the mixed-radix edge cases of an explicit radix argument, which the page never passes.
- ReadModel.SortNewestFirst: orders by the parsed millisecond value, with unparsable stamps last. SQLite orders the ISO text, which agrees for the timestamps the engine writes.
- Async scheduling is not modelled. `isProcessing` is a guard in sequential state, and `addProject`, `addMember` and `deleteProject` take no latch, as in the code.
- A member-total invariant (each member's total equals its attributed shares of the live logs) is deliberately not stated. With void dividing by the current member count, it fails once membership changes. The model proves the exact arithmetic per call instead (`Ledger.SharedSplitIsFair`, `Ledger.VoidUndoesExpense`).
- Rendering is not modelled: React components, jsPDF and autoTable layout, `toLocaleString` formatting, `exportFullPDF`, `generateFullVaultPDF`, the download-status timer and `src/lib/utils.ts`. None of them computes ledger state.

=== FILE: audit.dfy ===
/** The per-member audit views: the log list the member audit panel shows
    (`memberLogs` in `page.tsx`), the rows of the member PDF exported from the
    page, and the rows of `generateMemberAuditPDF` in `pdf.ts`.

    Timestamps are read with `new Date(..).getTime()`, which yields NaN for an
    unparsable string; every JavaScript comparison with NaN is false and NaN
    minus anything stays NaN. `Stamp.Invalid` plays NaN here. */
module Audit {
  import opened Wrappers
  import opened Seqs
  import opened Store
  import opened ReadModel
  import opened Engine

  /** A shared expense counts for a member who joined up to this many
      milliseconds after it was recorded. */
  const Grace: int := 2000

  /** JavaScript `a >= b` on two `getTime()` results. */
  predicate AtOrAfter(a: Stamp, b: Stamp)
  {
    a.Ms? && b.Ms? && a.ms >= b.ms
  }

  /** JavaScript `t - d` on a `getTime()` result. */
  function MinusMs(t: Stamp, d: int): Stamp
  {
    if t.Ms? then Ms(t.ms - d) else Invalid
  }

  /** `!l.memberId`: no member, or the empty id. */
  predicate Shared(l: Log)
  {
    !Present(l.memberId)
  }

  /** The time test of `page.tsx`, with its explicit NaN guard. */
  predicate PageWindow(l: Log, m: Member)
  {
    l.timestamp.Ms? && m.createdAt.Ms? && AtOrAfter(l.timestamp, MinusMs(m.createdAt, Grace))
  }

  /** The time test of `pdf.ts` and of the page's PDF export, without a guard. */
  predicate ReportWindow(l: Log, m: Member)
  {
    AtOrAfter(l.timestamp, MinusMs(m.createdAt, Grace))
  }

  /** The body of the `memberLogs` filter callback. */
  predicate PageRelevant(selected: Option<string>, m: Member, l: Log)
  {
    if l.memberId == selected then true
    else if Shared(l) && l.kind == Expense then PageWindow(l, m)
    else false
  }

  function PageKeep(selected: Option<string>, m: Member): Log -> bool
  {
    (l: Log) => PageRelevant(selected, m, l)
  }

  /** The `generateMemberAuditPDF` (and page export) filter callback. */
  predicate ReportRelevant(m: Member, l: Log)
  {
    l.memberId == Some(m.id) || (Shared(l) && l.kind == Expense && ReportWindow(l, m))
  }

  function ReportKeep(m: Member): Log -> bool
  {
    (l: Log) => ReportRelevant(m, l)
  }

  /** The inclusion rule the audit views promise, in plain integers: the
      member's own logs always, and a shared expense whose time is known and
      falls no earlier than the grace window before the member joined. */
  predicate Belongs(m: Member, l: Log)
  {
    || l.memberId == Some(m.id)
    || (&& Shared(l) && l.kind == Expense
        && l.timestamp.Ms? && m.createdAt.Ms?
        && l.timestamp.ms >= m.createdAt.ms - Grace)
  }

  function BelongsTo(m: Member): Log -> bool
  {
    (l: Log) => Belongs(m, l)
  }

  /** `members.find(m => m.id === selectedMemberId)`. */
  function FindSelected(ms: seq<Member>, selected: Option<string>): (r: Option<Member>)
    ensures r.Some? ==> r.value in ms && selected == Some(r.value.id)
    ensures r.None? <==> forall m :: m in ms ==> selected != Some(m.id)
  {
    if ms == [] then None
    else if selected == Some(ms[0].id) then Some(ms[0])
    else FindSelected(ms[1..], selected)
  }

  /** `memberLogs` of `page.tsx`: empty without an active project or a
      selected member of it; otherwise the project's logs that belong to the
      member, in the project's order. */
  function MemberLogs(active: Option<Project>, selected: Option<string>): (r: seq<Log>)
    ensures active.None? ==> r == []
    ensures active.Some? && FindSelected(active.value.members, selected).None? ==> r == []
    ensures active.Some? && FindSelected(active.value.members, selected).Some? ==>
              r == Filter(active.value.logs, BelongsTo(FindSelected(active.value.members, selected).value))
    ensures active.Some? && Ordered(active.value.logs, NewerLog) ==> Ordered(r, NewerLog)
  {
    if active.None? then []
    else
      match FindSelected(active.value.members, selected)
      case None => []
      case Some(m) =>
        var logs := active.value.logs;
        assert Filter(logs, PageKeep(selected, m)) == Filter(logs, BelongsTo(m)) by {
          FilterCongruent(logs, PageKeep(selected, m), BelongsTo(m));
        }
        assert Ordered(logs, NewerLog) ==> Ordered(Filter(logs, PageKeep(selected, m)), NewerLog) by {
          if Ordered(logs, NewerLog) {
            FilterOrdered(logs, PageKeep(selected, m), NewerLog);
          }
        }
        Filter(logs, PageKeep(selected, m))
  }

  /** The log list of a member PDF: `pdf.ts` lines 92-95, repeated in
      `exportMemberPDF` of `page.tsx`. */
  function ReportLogs(m: Member, p: Project): (r: seq<Log>)
    ensures r == Filter(p.logs, BelongsTo(m))
    ensures Ordered(p.logs, NewerLog) ==> Ordered(r, NewerLog)
  {
    assert Filter(p.logs, ReportKeep(m)) == Filter(p.logs, BelongsTo(m)) by {
      FilterCongruent(p.logs, ReportKeep(m), BelongsTo(m));
    }
    assert Ordered(p.logs, NewerLog) ==> Ordered(Filter(p.logs, ReportKeep(m)), NewerLog) by {
      if Ordered(p.logs, NewerLog) {
        FilterOrdered(p.logs, ReportKeep(m), NewerLog);
      }
    }
    Filter(p.logs, ReportKeep(m))
  }

  /** The NaN guard of `page.tsx` changes nothing: a NaN time already fails
      the comparison, so the panel and the PDF list the same logs. */
  lemma GuardIsRedundant(p: Project, selected: Option<string>)
    requires FindSelected(p.members, selected).Some?
    ensures MemberLogs(Some(p), selected) == ReportLogs(FindSelected(p.members, selected).value, p)
  {
    var m := FindSelected(p.members, selected).value;
    FilterCongruent(p.logs, PageKeep(selected, m), ReportKeep(m));
  }

  // ---------------------------------------------------------------------------
  // Row amounts

  datatype Auth = SharedAuth | DirectAuth

  datatype AuditRow = AuditRow(timestamp: Stamp, auth: Auth, context: string, amount: real)

  function AuthOf(l: Log): (r: Auth)
    ensures r == SharedAuth <==> Shared(l)
  {
    if Shared(l) then SharedAuth else DirectAuth
  }

  /** JavaScript `c || 1` for a count that may be absent. */
  function CountOrOne(c: Option<real>): real
  {
    if c.Some? && c.value != 0.0 then c.value else 1.0
  }

  /** The personal burn of `pdf.ts` line 102 for a log carrying participant
      count `participants`: a shared log is split over that count, a direct
      log is charged whole. */
  function PersonalBurn(l: Log, participants: Option<real>): (r: real)
    ensures !Shared(l) ==> r == -l.value
    ensures participants.None? || participants == Some(0.0) ==> r == -l.value
    ensures Shared(l) && participants.Some? && participants.value != 0.0 ==> r * participants.value == -l.value
  {
    if Shared(l) then -l.value / CountOrOne(participants) else -l.value
  }

  /** The rows of `generateMemberAuditPDF`. The logs it receives come from the
      projection, which carries no participant count, so `participant_count`
      is always absent and every row's burn is the whole `-value`. */
  function MemberAuditRows(m: Member, p: Project): (r: seq<AuditRow>)
    ensures |r| == |ReportLogs(m, p)|
    ensures forall i :: 0 <= i < |r| ==>
              var l := ReportLogs(m, p)[i];
              && r[i].timestamp == l.timestamp && r[i].context == l.context
              && (r[i].auth == SharedAuth <==> Shared(l))
              && r[i].amount == -l.value
  {
    var logs := ReportLogs(m, p);
    seq(|logs|, i requires 0 <= i < |logs| =>
      AuditRow(logs[i].timestamp, AuthOf(logs[i]), logs[i].context, PersonalBurn(logs[i], None)))
  }

  /** The MAGNITUDE column of `exportMemberPDF` in `page.tsx`: a shared log is
      split over the project's current member count (`|| 1`). */
  function ExportAmount(l: Log, memberCount: nat): (r: real)
    ensures !Shared(l) ==> r == -l.value
    ensures Shared(l) && memberCount == 0 ==> r == -l.value
    ensures Shared(l) && memberCount > 0 ==> r * (memberCount as real) == -l.value
  {
    if Shared(l) then -l.value / (if memberCount == 0 then 1.0 else memberCount as real) else -l.value
  }

  function ExportRows(m: Member, p: Project): (r: seq<AuditRow>)
    ensures |r| == |ReportLogs(m, p)|
    ensures forall i :: 0 <= i < |r| ==>
              var l := ReportLogs(m, p)[i];
              && r[i].timestamp == l.timestamp && r[i].context == l.context
              && (r[i].auth == SharedAuth <==> Shared(l))
              && r[i].amount == ExportAmount(l, |p.members|)
  {
    var logs := ReportLogs(m, p);
    seq(|logs|, i requires 0 <= i < |logs| =>
      AuditRow(logs[i].timestamp, AuthOf(logs[i]), logs[i].context, ExportAmount(logs[i], |p.members|)))
  }

  // ---------------------------------------------------------------------------
  // The audit views against the engine's split

  /** While the membership is the one `addExpense` split over, the page's
      export shows each member exactly the share it was charged; the
      `pdf.ts` burn shows the whole amount, `n` times that share. */
  lemma ExportMatchesCharge(ms: seq<MemberRow>, projectId: string, amount: real, context: string,
                            now: int, logId: string, m: MemberRow)
    requires amount > 0.0 && MemberCount(ms, projectId) > 0 && m.projectId == projectId
    ensures var l := LogView(ExpenseEntry(projectId, amount, context, None, now, logId));
            && ExportAmount(l, MemberCount(ms, projectId)) == Share(ms, projectId, amount, None, m)
            && PersonalBurn(l, None) == (MemberCount(ms, projectId) as real) * Share(ms, projectId, amount, None, m)
  {
    var n := MemberCount(ms, projectId) as real;
    var l := LogView(ExpenseEntry(projectId, amount, context, None, now, logId));
    assert Shared(l) && l.value == -amount;
    assert Share(ms, projectId, amount, None, m) == amount / n;
    assert n * (amount / n) == amount;
  }

  /** The same, row by row in the exported table: wherever the member PDF
      lists that fresh shared expense, its row is marked SHARED and shows the
      share `addExpense` charged the member. */
  lemma ExportRowsMatchCharge(ms: seq<MemberRow>, projectId: string, amount: real, context: string,
                              now: int, logId: string, m: MemberRow, viewer: Member, p: Project, i: int)
    requires amount > 0.0 && MemberCount(ms, projectId) > 0 && m.projectId == projectId
    requires |p.members| == MemberCount(ms, projectId)
    requires 0 <= i < |ReportLogs(viewer, p)|
    requires ReportLogs(viewer, p)[i] == LogView(ExpenseEntry(projectId, amount, context, None, now, logId))
    ensures ExportRows(viewer, p)[i].auth == SharedAuth
    ensures ExportRows(viewer, p)[i].amount == Share(ms, projectId, amount, None, m)
  {
    ExportMatchesCharge(ms, projectId, amount, context, now, logId, m);
  }
}

=== FILE: dispatch.dfy ===
/** The command panel of `page.tsx`: turning the typed amount into a number
    (`handleExecute`, lines 77-78), choosing the engine call and its
    arguments (lines 72-90), and closing the modals (lines 66-70). */
module Dispatch {
  import opened Wrappers
  import opened Seqs
  import opened Store
  import opened ReadModel
  import opened Engine

  // ---------------------------------------------------------------------------
  // Amount parsing: `parseInt(amount.replace(/\./g, '')) || 0`

  function NotDot(c: char): bool { c != '.' }

  /** The amount with every `.` (the thousands separator users type) removed. */
  function StripDots(s: string): (r: string)
    ensures forall c :: c in r <==> c in s && c != '.'
  {
    Filter(s, NotDot)
  }

  /** Dots are removed piecewise: stripping a concatenation strips each part,
      a dot disappears and any other character stays. Together these fix
      the result: every non-dot character of the input, once, in order. */
  lemma StripDotsPiecewise(a: string, b: string, c: char)
    ensures StripDots(a + b) == StripDots(a) + StripDots(b)
    ensures StripDots([]) == []
    ensures StripDots([c]) == if c == '.' then [] else [c]
  {
    FilterAppend(a, b, NotDot);
    assert [c][1..] == [];
  }

  /** The characters `parseInt` skips before the number: the ECMAScript
      WhiteSpace and LineTerminator code points. */
  predicate IsSpace(c: char)
  {
    || c == '\t' || c == '\n' || c == '\U{000B}' || c == '\U{000C}' || c == '\r'
    || c == ' ' || c == '\U{00A0}' || c == '\U{1680}' || ('\U{2000}' <= c <= '\U{200A}')
    || c == '\U{2028}' || c == '\U{2029}' || c == '\U{202F}' || c == '\U{205F}'
    || c == '\U{3000}' || c == '\U{FEFF}'
  }

  predicate IsDecimal(c: char)
  {
    '0' <= c <= '9'
  }

  /** A digit in base `radix`, which is 10 or 16. */
  predicate IsDigit(c: char, radix: nat)
  {
    IsDecimal(c) || (radix == 16 && ('a' <= c <= 'f' || 'A' <= c <= 'F'))
  }

  function DigitValue(c: char): nat
  {
    if IsDecimal(c) then c as int - '0' as int
    else if 'a' <= c <= 'f' then c as int - 'a' as int + 10
    else if 'A' <= c <= 'F' then c as int - 'A' as int + 10
    else 0
  }

  /** The input after its leading white space. */
  function TrimStart(s: string): (r: string)
    ensures |r| <= |s| && r == s[|s| - |r|..]
    ensures forall i :: 0 <= i < |s| - |r| ==> IsSpace(s[i])
    ensures r != [] ==> !IsSpace(r[0])
  {
    if s != [] && IsSpace(s[0]) then TrimStart(s[1..]) else s
  }

  /** The longest prefix of `s` made of base-`radix` digits. */
  function DigitRun(s: string, radix: nat): (r: string)
    ensures |r| <= |s| && r == s[..|r|]
    ensures forall c :: c in r ==> IsDigit(c, radix)
    ensures |r| < |s| ==> !IsDigit(s[|r|], radix)
  {
    if s != [] && IsDigit(s[0], radix) then [s[0]] + DigitRun(s[1..], radix) else []
  }

  /** The number a run of digits denotes, most significant first. */
  function Evaluate(ds: string, radix: nat): nat
  {
    if ds == [] then 0 else Evaluate(ds[..|ds| - 1], radix) * radix + DigitValue(ds[|ds| - 1])
  }

  /** An unsigned numeral: a `0x`/`0X` prefix selects base 16, then the
      longest run of digits; `None` when there is no digit. */
  function Unsigned(u: string): Option<nat>
  {
    var hex := |u| >= 2 && u[0] == '0' && (u[1] == 'x' || u[1] == 'X');
    var radix := if hex then 16 else 10;
    var ds := DigitRun(if hex then u[2..] else u, radix);
    if ds == [] then None else Some(Evaluate(ds, radix))
  }

  /** JavaScript `parseInt(s)` with no radix: skip white space, read one sign,
      then an unsigned numeral. `None` is NaN. */
  function ParseInt(s: string): Option<int>
  {
    var t := TrimStart(s);
    if t != [] && t[0] == '-' then
      match Unsigned(t[1..])
      case None => None
      case Some(v) => Some(-(v as int))
    else if t != [] && t[0] == '+' then
      match Unsigned(t[1..])
      case None => None
      case Some(v) => Some(v as int)
    else
      match Unsigned(t)
      case None => None
      case Some(v) => Some(v as int)
  }

  /** `parseInt(cleanAmount) || 0`: NaN (and zero) become 0. */
  function AmountOf(raw: string): int
  {
    match ParseInt(StripDots(raw))
    case None => 0
    case Some(v) => v
  }

  lemma SuffixChars(s: string, r: string, c: char)
    requires |r| <= |s| && r == s[|s| - |r|..]
    requires c in r
    ensures c in s
  {
    var k :| 0 <= k < |r| && r[k] == c;
    assert s[|s| - |r| + k] == c;
  }

  lemma UnsignedNoDigit(u: string)
    requires forall c :: c in u ==> !IsDecimal(c)
    ensures Unsigned(u).None?
  {
    if u != [] {
      assert u[0] in u;
    }
  }

  /** Input with no decimal digit at all parses to 0. */
  lemma NoDigitIsZero(raw: string)
    requires forall c :: c in raw ==> !IsDecimal(c)
    ensures AmountOf(raw) == 0
  {
    var s := StripDots(raw);
    var t := TrimStart(s);
    forall c | c in t ensures !IsDecimal(c)
    {
      SuffixChars(s, t, c);
    }
    if t != [] {
      assert forall c :: c in t[1..] ==> c in t;
      UnsignedNoDigit(t[1..]);
    }
    UnsignedNoDigit(t);
  }

  /** A dot anywhere in the amount is ignored. */
  lemma DotIgnored(a: string, b: string)
    ensures AmountOf(a + "." + b) == AmountOf(a + b)
  {
    FilterAppend(a + ".", b, NotDot);
    FilterAppend(a, ".", NotDot);
    FilterAppend(a, b, NotDot);
    assert Filter(".", NotDot) == [];
    assert StripDots(a + "." + b) == StripDots(a + b);
  }

  // ---------------------------------------------------------------------------
  // The amounts users type: decimal digits grouped by dots

  function DigitChar(d: nat): char
    requires d < 10
  {
    ('0' as int + d) as char
  }

  /** `n` in decimal, no leading zeros. */
  function Decimal(n: nat): string
    decreases n
  {
    if n < 10 then [DigitChar(n)] else Decimal(n / 10) + [DigitChar(n % 10)]
  }

  /** `k < 1000` as exactly three digits. */
  function Pad3(k: nat): string
    requires k < 1000
  {
    [DigitChar(k / 100), DigitChar(k / 10 % 10), DigitChar(k % 10)]
  }

  /** `n` as written with thousands separators, `1.250.000`. */
  function Grouped(n: nat): string
    decreases n
  {
    if n < 1000 then Decimal(n) else Grouped(n / 1000) + "." + Pad3(n % 1000)
  }

  predicate AllDecimal(s: string)
  {
    forall c :: c in s ==> IsDecimal(c)
  }

  lemma EvaluateSnoc(a: string, c: char)
    ensures Evaluate(a + [c], 10) == Evaluate(a, 10) * 10 + DigitValue(c)
  {
    assert (a + [c])[..|a + [c]| - 1] == a;
  }

  lemma {:induction false} DecimalValue(n: nat)
    ensures Decimal(n) != [] && AllDecimal(Decimal(n))
    ensures Evaluate(Decimal(n), 10) == n
    decreases n
  {
    if n >= 10 {
      DecimalValue(n / 10);
      EvaluateSnoc(Decimal(n / 10), DigitChar(n % 10));
    }
  }

  lemma Pad3Value(a: string, k: nat)
    requires k < 1000
    ensures Evaluate(a + Pad3(k), 10) == Evaluate(a, 10) * 1000 + k
  {
    var x, y, z := DigitChar(k / 100), DigitChar(k / 10 % 10), DigitChar(k % 10);
    EvaluateSnoc(a, x);
    EvaluateSnoc(a + [x], y);
    EvaluateSnoc(a + [x] + [y], z);
    assert a + Pad3(k) == a + [x] + [y] + [z];
  }

  lemma {:induction false} GroupedDigits(n: nat)
    ensures StripDots(Grouped(n)) != [] && AllDecimal(StripDots(Grouped(n)))
    ensures Evaluate(StripDots(Grouped(n)), 10) == n
    decreases n
  {
    if n < 1000 {
      DecimalValue(n);
      FilterKeepsAll(Decimal(n), NotDot);
    } else {
      var hi := Grouped(n / 1000);
      var lo := Pad3(n % 1000);
      GroupedDigits(n / 1000);
      FilterAppend(hi + ".", lo, NotDot);
      FilterAppend(hi, ".", NotDot);
      assert Filter(".", NotDot) == [];
      FilterKeepsAll(lo, NotDot);
      assert StripDots(Grouped(n)) == StripDots(hi) + lo;
      Pad3Value(StripDots(hi), n % 1000);
    }
  }

  lemma DecimalNotSpace(c: char)
    requires IsDecimal(c)
    ensures !IsSpace(c) && c != '-' && c != '+' && c != 'x' && c != 'X'
  {
  }

  lemma UnsignedDecimal(ds: string)
    requires ds != [] && AllDecimal(ds)
    ensures Unsigned(ds) == Some(Evaluate(ds, 10))
  {
    if |ds| >= 2 {
      assert ds[1] in ds;
      DecimalNotSpace(ds[1]);
    }
    DigitRunAll(ds, 10);
  }

  lemma ParseDigits(ds: string)
    requires ds != [] && AllDecimal(ds)
    ensures ParseInt(ds) == Some(Evaluate(ds, 10) as int)
  {
    assert ds[0] in ds;
    DecimalNotSpace(ds[0]);
    assert TrimStart(ds) == ds;
    UnsignedDecimal(ds);
  }

  lemma ParseNegatedDigits(ds: string)
    requires ds != [] && AllDecimal(ds)
    ensures ParseInt("-" + ds) == Some(-(Evaluate(ds, 10) as int))
  {
    var m := "-" + ds;
    assert m[0] == '-' && m[1..] == ds;
    assert !IsSpace(m[0]);
    assert TrimStart(m) == m;
    UnsignedDecimal(ds);
    assert Unsigned(m[1..]) == Some(Evaluate(ds, 10));
  }

  lemma {:induction false} DigitRunAll(ds: string, radix: nat)
    requires forall c :: c in ds ==> IsDigit(c, radix)
    ensures DigitRun(ds, radix) == ds
  {
    if ds != [] {
      assert ds[0] in ds;
      DigitRunAll(ds[1..], radix);
    }
  }

  /** Reading back an amount written with thousands separators gives the
      amount: `1.250.000` is 1250000, and `-1.250.000` its negation. */
  lemma GroupedRoundTrip(n: nat)
    ensures AmountOf(Grouped(n)) == n
    ensures AmountOf("-" + Grouped(n)) == -(n as int)
  {
    GroupedDigits(n);
    var ds := StripDots(Grouped(n));
    ParseDigits(ds);
    ParseNegatedDigits(ds);
    FilterAppend("-", Grouped(n), NotDot);
    assert Filter("-", NotDot) == "-";
    assert StripDots("-" + Grouped(n)) == "-" + ds;
  }

  // ---------------------------------------------------------------------------
  // The modal form and the engine call it issues

  datatype ModalType = ProjectModal | OperativeModal | ExpenseModal | InjectionModal

  datatype Form = Form(name: string, role: string, amount: string)

  const BlankForm: Form := Form("", "", "")

  /** The page's UI state that the handlers touch. */
  datatype Ui = Ui(modal: Option<ModalType>, selectedMember: Option<string>, selectedLog: Option<string>,
                   form: Form, expenseMemberId: string)

  /** The engine call `handleExecute` makes, if any. */
  datatype Call =
    | NoCall
    | CallAddProject(name: string)
    | CallAddMember(projectId: string, memberName: string, role: string)
    | CallAddExpense(target: string, amount: int, context: string, memberId: Option<string>)

  datatype Outcome = Outcome(call: Call, ui: Ui)

  /** JavaScript `s || fallback` on a string. */
  function OrElse(s: string, fallback: string): string
  {
    if s == "" then fallback else s
  }

  /** `handleCloseModals`: ignored while an engine call is in flight,
      otherwise every modal, selection and form field is reset. */
  function CloseModals(ui: Ui, isProcessing: bool): (r: Ui)
    ensures isProcessing ==> r == ui
    ensures !isProcessing ==> r.modal.None? && r.selectedMember.None? && r.selectedLog.None?
    ensures !isProcessing ==> r.form == BlankForm && r.expenseMemberId == ""
  {
    if isProcessing then ui else Ui(None, None, None, BlankForm, "")
  }

  /** The call chosen by the `try` block of `handleExecute`. */
  function Command(ui: Ui, active: Option<Project>): Call
  {
    var amount := AmountOf(ui.form.amount);
    if ui.modal == Some(ProjectModal) && ui.form.name != "" then CallAddProject(ui.form.name)
    else if active.None? then NoCall
    else if ui.modal == Some(OperativeModal) && ui.form.name != "" then
      CallAddMember(active.value.id, ui.form.name, OrElse(ui.form.role, "UNIT"))
    else if ui.modal == Some(InjectionModal) && amount != 0 then
      CallAddExpense(active.value.id, -amount, OrElse(ui.form.name, "Initial Injection"), None)
    else if ui.modal == Some(ExpenseModal) && amount != 0 then
      CallAddExpense(active.value.id, amount, OrElse(ui.form.name, "Operation Log"), Some(ui.expenseMemberId))
    else NoCall
  }

  /** Whether the awaited call rejects: `addProject` and `addMember` let a
      store failure escape, the ledger operations catch their own. */
  predicate Rejects(c: Call, fault: bool)
  {
    fault && (c.CallAddProject? || c.CallAddMember?)
  }

  /** `handleExecute`, given the processing latch, the active project and
      whether the store fails. The modals close after the call unless it
      rejects (the `catch` skips `handleCloseModals`). */
  function Execute(ui: Ui, isProcessing: bool, active: Option<Project>, fault: bool): (r: Outcome)
    // guards: nothing happens while busy or without a project to act on
    ensures isProcessing ==> r == Outcome(NoCall, ui)
    ensures active.None? && ui.modal != Some(ProjectModal) ==> r == Outcome(NoCall, ui)
    // each call is made exactly when its modal, name or amount asks for it
    ensures !isProcessing && ui.modal == Some(ProjectModal) && ui.form.name != "" ==>
              r.call == CallAddProject(ui.form.name)
    ensures !isProcessing && active.Some? && ui.modal == Some(OperativeModal) && ui.form.name != "" ==>
              r.call == CallAddMember(active.value.id, ui.form.name,
                                      if ui.form.role == "" then "UNIT" else ui.form.role)
    ensures !isProcessing && active.Some? && ui.modal == Some(InjectionModal) && AmountOf(ui.form.amount) != 0 ==>
              r.call == CallAddExpense(active.value.id, -AmountOf(ui.form.amount),
                                       if ui.form.name == "" then "Initial Injection" else ui.form.name, None)
    ensures !isProcessing && active.Some? && ui.modal == Some(ExpenseModal) && AmountOf(ui.form.amount) != 0 ==>
              r.call == CallAddExpense(active.value.id, AmountOf(ui.form.amount),
                                       if ui.form.name == "" then "Operation Log" else ui.form.name,
                                       Some(ui.expenseMemberId))
    // and no call is made otherwise
    ensures r.call.CallAddProject? ==> ui.modal == Some(ProjectModal) && ui.form.name != ""
    ensures r.call.CallAddMember? ==> ui.modal == Some(OperativeModal) && ui.form.name != "" && active.Some?
    ensures r.call.CallAddExpense? ==>
              && active.Some? && AmountOf(ui.form.amount) != 0
              && (ui.modal == Some(InjectionModal) || ui.modal == Some(ExpenseModal))
    // the modals close after the call unless it rejects
    ensures !isProcessing && (active.Some? || ui.modal == Some(ProjectModal)) ==>
              r.ui == (if Rejects(r.call, fault) then ui else CloseModals(ui, false))
  {
    if isProcessing then Outcome(NoCall, ui)
    else if active.None? && ui.modal != Some(ProjectModal) then Outcome(NoCall, ui)
    else
      var c := Command(ui, active);
      Outcome(c, if Rejects(c, fault) then ui else CloseModals(ui, false))
  }

  /** What a dispatched ledger command does to the active project's balance:
      an injection raises it by the typed amount, an expense lowers it. */
  lemma DispatchMovesBalance(ui: Ui, active: Option<Project>, fault: bool, s: Vault,
                             now: int, logId: string, i: nat)
    requires Execute(ui, false, active, fault).call.CallAddExpense?
    requires Fresh(s.db, logId) && !s.isProcessing
    requires i < |s.db.projects| && active.Some? && s.db.projects[i].id == active.value.id
    ensures var c := Execute(ui, false, active, fault).call;
            var r := AddExpense(s, c.target, c.amount as real, c.context, c.memberId, now, logId, false);
            r.db.projects[i].balance == s.db.projects[i].balance
              + (if ui.modal == Some(InjectionModal) then 1.0 else -1.0) * (AmountOf(ui.form.amount) as real)
  {
  }

  /** Once the modals are closed, pressing execute again calls nothing: the
      cleared form names no modal, so a submission cannot be repeated. */
  lemma ClosedFormCallsNothing(ui: Ui, active: Option<Project>, fault: bool)
    ensures Execute(CloseModals(ui, false), false, active, fault).call == NoCall
  {
  }

  /** While a call is in flight, closing leaves the modal and its form as they
      are; closing twice is closing once. */
  lemma CloseModalsLatched(ui: Ui, isProcessing: bool)
    ensures CloseModals(ui, true) == ui
    ensures CloseModals(CloseModals(ui, isProcessing), isProcessing) == CloseModals(ui, isProcessing)
  {
  }
}

=== FILE: engine.dfy ===
/** The ledger engine of src/store/useVault.ts: the client state (the projected
    projects, the active selection, the `isProcessing` latch and the
    `vault_active_id` entry of local storage) over the store, and every
    operation as a function from the state before the call to the state
    after it has completed.

    Fresh ids (`crypto.randomUUID()`), the clock (`new Date()`, as milliseconds)
    and store failures are parameters: `fault` says that some statement of the
    call's store work fails. */
module Engine {
  import opened Wrappers
  import opened Seqs
  import opened Store
  import opened ReadModel

  datatype Vault = Vault(
    db: Db,                          // the tables
    projects: seq<Project>,          // the last projection read
    activeProjectId: Option<string>,
    isProcessing: bool,
    savedId: Option<string>)         // localStorage 'vault_active_id'

  predicate HasProject(db: Db, id: string)
  {
    exists p :: p in db.projects && p.id == id
  }

  /** Two stores whose project tables carry the same ids, row by row, have
      the same projects. */
  lemma SameIds(a: Db, b: Db, id: string)
    requires |a.projects| == |b.projects| && forall i :: 0 <= i < |a.projects| ==> a.projects[i].id == b.projects[i].id
    ensures HasProject(a, id) <==> HasProject(b, id)
  {
    if HasProject(b, id) {
      var p :| p in b.projects && p.id == id;
      var i :| 0 <= i < |b.projects| && b.projects[i] == p;
      assert a.projects[i] in a.projects;
    }
    if HasProject(a, id) {
      var p :| p in a.projects && p.id == id;
      var i :| 0 <= i < |a.projects| && a.projects[i] == p;
      assert b.projects[i] in b.projects;
    }
  }

  // ---------------------------------------------------------------------------
  // Reads and selection

  /** `fetchProjects`: re-read the projection, then restore the saved active id
      if some project carries it. */
  function FetchProjects(s: Vault): (r: Vault)
    ensures r.db == s.db && r.isProcessing == s.isProcessing && r.savedId == s.savedId
    ensures r.projects == Projection(s.db)
    ensures r.activeProjectId != s.activeProjectId ==>
      Present(s.savedId) && HasProject(s.db, s.savedId.value) && r.activeProjectId == s.savedId
    ensures Present(s.savedId) && HasProject(s.db, s.savedId.value) ==> r.activeProjectId == s.savedId
  {
    var formatted := Projection(s.db);
    var restore := Present(s.savedId) && exists i :: 0 <= i < |formatted| && formatted[i].id == s.savedId.value;
    s.(projects := formatted, activeProjectId := if restore then s.savedId else s.activeProjectId)
  }

  /** `setActiveProject`: select `id` and remember it, or forget the saved id
      when `id` is null or empty. */
  function SetActiveProject(s: Vault, id: Option<string>): (r: Vault)
    ensures r.activeProjectId == id
    ensures Present(id) ==> r.savedId == id
    ensures !Present(id) ==> r.savedId == None
    ensures r.db == s.db && r.projects == s.projects && r.isProcessing == s.isProcessing
  {
    s.(activeProjectId := id, savedId := if Present(id) then id else None)
  }

  /** The `finally` block of every latched operation. */
  function Release(s: Vault, db: Db): Vault
  {
    FetchProjects(s.(db := db, isProcessing := false))
  }

  /** A call that renames no project restores the saved selection on release
      exactly as a fetch before the call would have. */
  lemma ReleaseRestores(s: Vault, db: Db)
    requires |db.projects| == |s.db.projects|
    requires forall i :: 0 <= i < |db.projects| ==> db.projects[i].id == s.db.projects[i].id
    ensures Release(s, db).activeProjectId ==
              if Present(s.savedId) && HasProject(s.db, s.savedId.value) then s.savedId else s.activeProjectId
  {
    if Present(s.savedId) {
      SameIds(db, s.db, s.savedId.value);
    }
  }

  // ---------------------------------------------------------------------------
  // addExpense

  /** The split calculator: what `addExpense` adds to member `m`'s total. Only
      expenses (`amount > 0`) are attributed: wholly to the named member, or in
      equal parts to every current member of the project when none is named. */
  function Share(members: seq<MemberRow>, projectId: string, amount: real, memberId: Option<string>, m: MemberRow): real
  {
    var n := MemberCount(members, projectId);
    if amount <= 0.0 then 0.0
    else if Present(memberId) then (if m.id == memberId.value then amount else 0.0)
    else if n > 0 && m.projectId == projectId then amount / (n as real)
    else 0.0
  }

  /** The row `addExpense` inserts. */
  function ExpenseEntry(projectId: string, amount: real, context: string, memberId: Option<string>, now: int, logId: string): LogRow
  {
    var isExpense := amount > 0.0;
    LogRow(logId, projectId,
           if Present(memberId) then memberId else None,
           Ms(now),
           if isExpense then Expense else Injection,
           if !Present(memberId) && isExpense then context + " (SHARED_SPLIT)" else context,
           -amount)
  }

  function ExpenseStatements(db: Db, projectId: string, amount: real, context: string, memberId: Option<string>, now: int, logId: string): seq<Stmt>
  {
    var n := MemberCount(db.members, projectId);
    var debit := AdjustBalance(projectId, -amount);
    var record := InsertLog(ExpenseEntry(projectId, amount, context, memberId, now, logId));
    if amount > 0.0 && Present(memberId) then [debit, CreditMember(memberId.value, amount), record]
    else if amount > 0.0 && n > 0 then [debit, CreditProjectMembers(projectId, amount / (n as real)), record]
    else [debit, record]
  }

  /** `addExpense(projectId, amount, context, memberId)`: a positive amount is
      an expense, anything else an injection of `-amount`. */
  function AddExpense(s: Vault, projectId: string, amount: real, context: string, memberId: Option<string>,
                      now: int, logId: string, fault: bool): (r: Vault)
    requires Fresh(s.db, logId)
    ensures s.isProcessing ==> r == s
    ensures !s.isProcessing ==> !r.isProcessing && r.projects == Projection(r.db) && r.savedId == s.savedId
    ensures !s.isProcessing ==> r.activeProjectId == (if Present(s.savedId) && HasProject(s.db, s.savedId.value) then s.savedId else s.activeProjectId)
    ensures !s.isProcessing && fault ==> r.db == s.db
    ensures !s.isProcessing && !fault ==>
      && |r.db.projects| == |s.db.projects|
      && (forall i :: 0 <= i < |s.db.projects| ==>
            r.db.projects[i] == s.db.projects[i].(balance := s.db.projects[i].balance
                                                            - (if s.db.projects[i].id == projectId then amount else 0.0)))
      && |r.db.members| == |s.db.members|
      && (forall i :: 0 <= i < |s.db.members| ==>
            r.db.members[i] == s.db.members[i].(totalSpent := s.db.members[i].totalSpent
                                                              + Share(s.db.members, projectId, amount, memberId, s.db.members[i])))
      && |r.db.logs| == |s.db.logs| + 1
      && r.db.logs[..|s.db.logs|] == s.db.logs
      && r.db.logs[|s.db.logs|].id == logId
      && r.db.logs[|s.db.logs|].projectId == projectId
      && r.db.logs[|s.db.logs|].value == -amount
      && (r.db.logs[|s.db.logs|].kind == Expense <==> amount > 0.0)
      && r.db.logs[|s.db.logs|].memberId == (if Present(memberId) then memberId else None)
      && r.db.logs[|s.db.logs|].timestamp == Ms(now)
      && (r.db.logs[|s.db.logs|].context == context + " (SHARED_SPLIT)" <== !Present(memberId) && amount > 0.0)
      && (r.db.logs[|s.db.logs|].context == context <== Present(memberId) || amount <= 0.0)
  {
    if s.isProcessing then s
    else
      var stmts := ExpenseStatements(s.db, projectId, amount, context, memberId, now, logId);
      var db := Transact(s.db, stmts, fault);
      AddExpenseEffect(s.db, projectId, amount, context, memberId, now, logId);
      ReleaseRestores(s, db);
      Release(s, db)
  }

  lemma AddExpenseEffect(db: Db, projectId: string, amount: real, context: string, memberId: Option<string>, now: int, logId: string)
    ensures var r := ExecAll(db, ExpenseStatements(db, projectId, amount, context, memberId, now, logId));
      && r.projects == AddToBalance(db.projects, projectId, -amount)
      && |r.members| == |db.members|
      && (forall i :: 0 <= i < |db.members| ==>
            r.members[i] == db.members[i].(totalSpent := db.members[i].totalSpent
                                                        + Share(db.members, projectId, amount, memberId, db.members[i])))
      && r.logs == db.logs + [ExpenseEntry(projectId, amount, context, memberId, now, logId)]
  {
    var n := MemberCount(db.members, projectId);
    var debit := AdjustBalance(projectId, -amount);
    var record := InsertLog(ExpenseEntry(projectId, amount, context, memberId, now, logId));
    if amount > 0.0 && Present(memberId) {
      ExecThree(db, debit, CreditMember(memberId.value, amount), record);
    } else if amount > 0.0 && n > 0 {
      ExecThree(db, debit, CreditProjectMembers(projectId, amount / (n as real)), record);
    } else {
      ExecTwo(db, debit, record);
    }
  }

  // ---------------------------------------------------------------------------
  // deleteLog: the void protocol

  /** What voiding log `l` of project `projectId` adds to member `m`'s total:
      the (negative) value for the member a direct expense names, the value
      divided by the CURRENT member count for a shared expense, nothing for an
      injection. */
  function Reversal(members: seq<MemberRow>, projectId: string, l: LogRow, m: MemberRow): real
  {
    var n := MemberCount(members, projectId);
    if l.kind != Expense then 0.0
    else if Present(l.memberId) then (if m.id == l.memberId.value then l.value else 0.0)
    else if n > 0 && m.projectId == projectId then l.value / (n as real)
    else 0.0
  }

  function VoidStatements(db: Db, projectId: string, l: LogRow, logId: string): seq<Stmt>
  {
    var n := MemberCount(db.members, projectId);
    var restore := AdjustBalance(projectId, -l.value);
    var remove := DeleteLogRow(logId);
    if l.kind == Expense && Present(l.memberId) then [restore, CreditMember(l.memberId.value, l.value), remove]
    else if l.kind == Expense && n > 0 then [restore, CreditProjectMembers(projectId, l.value / (n as real)), remove]
    else [restore, remove]
  }

  /** `deleteLog(projectId, logId)`. A log that is not in the project aborts
      with LOG_NOT_FOUND before any write. */
  function DeleteLog(s: Vault, projectId: string, logId: string, fault: bool): (r: Vault)
    ensures s.isProcessing ==> r == s
    ensures !s.isProcessing ==> !r.isProcessing && r.projects == Projection(r.db) && r.savedId == s.savedId
    ensures !s.isProcessing ==> r.activeProjectId == (if Present(s.savedId) && HasProject(s.db, s.savedId.value) then s.savedId else s.activeProjectId)
    ensures !s.isProcessing && (fault || FindLog(s.db.logs, logId, projectId).None?) ==> r.db == s.db
    ensures !s.isProcessing && !fault && FindLog(s.db.logs, logId, projectId).Some? ==>
      var l := FindLog(s.db.logs, logId, projectId).value;
      && |r.db.projects| == |s.db.projects|
      && (forall i :: 0 <= i < |s.db.projects| ==>
            r.db.projects[i] == s.db.projects[i].(balance := s.db.projects[i].balance
                                                            - (if s.db.projects[i].id == projectId then l.value else 0.0)))
      && |r.db.members| == |s.db.members|
      && (forall i :: 0 <= i < |s.db.members| ==>
            r.db.members[i] == s.db.members[i].(totalSpent := s.db.members[i].totalSpent
                                                              + Reversal(s.db.members, projectId, l, s.db.members[i])))
      && r.db.logs == Filter(s.db.logs, LogIdIsNot(logId))
      && (forall x :: x in r.db.logs <==> x in s.db.logs && x.id != logId)
  {
    if s.isProcessing then s
    else match FindLog(s.db.logs, logId, projectId)
      case None => Release(s, s.db)
      case Some(l) =>
        var db := Transact(s.db, VoidStatements(s.db, projectId, l, logId), fault);
        VoidEffect(s.db, projectId, l, logId);
        ReleaseRestores(s, db);
        Release(s, db)
  }

  lemma VoidEffect(db: Db, projectId: string, l: LogRow, logId: string)
    ensures var r := ExecAll(db, VoidStatements(db, projectId, l, logId));
      && r.projects == AddToBalance(db.projects, projectId, -l.value)
      && |r.members| == |db.members|
      && (forall i :: 0 <= i < |db.members| ==>
            r.members[i] == db.members[i].(totalSpent := db.members[i].totalSpent
                                                        + Reversal(db.members, projectId, l, db.members[i])))
      && r.logs == Filter(db.logs, LogIdIsNot(logId))
  {
    var n := MemberCount(db.members, projectId);
    var restore := AdjustBalance(projectId, -l.value);
    var remove := DeleteLogRow(logId);
    if l.kind == Expense && Present(l.memberId) {
      ExecThree(db, restore, CreditMember(l.memberId.value, l.value), remove);
    } else if l.kind == Expense && n > 0 {
      ExecThree(db, restore, CreditProjectMembers(projectId, l.value / (n as real)), remove);
    } else {
      ExecTwo(db, restore, remove);
    }
  }

  // ---------------------------------------------------------------------------
  // deleteMember: decommission

  function DecommissionEntry(projectId: string, m: MemberRow, refundAmount: real, now: int, logId: string): LogRow
  {
    LogRow(logId, projectId, None, Ms(now), Injection, "UNIT_DECOMMISSIONED: " + m.name, refundAmount)
  }

  /** `deleteMember(projectId, memberId, refund)`. The member is looked up by id
      alone; a missing one aborts with UNIT_NOT_FOUND before any write. */
  function DeleteMember(s: Vault, projectId: string, memberId: string, refund: bool,
                        now: int, logId: string, fault: bool): (r: Vault)
    requires Fresh(s.db, logId)
    ensures s.isProcessing ==> r == s
    ensures !s.isProcessing ==> !r.isProcessing && r.projects == Projection(r.db) && r.savedId == s.savedId
    ensures !s.isProcessing ==> r.activeProjectId == (if Present(s.savedId) && HasProject(s.db, s.savedId.value) then s.savedId else s.activeProjectId)
    ensures !s.isProcessing && (fault || FindMember(s.db.members, memberId).None?) ==> r.db == s.db
    ensures !s.isProcessing && !fault && FindMember(s.db.members, memberId).Some? ==>
      var m := FindMember(s.db.members, memberId).value;
      var refundAmount := if refund then m.totalSpent else 0.0;
      && |r.db.projects| == |s.db.projects|
      && (forall i :: 0 <= i < |s.db.projects| ==>
            r.db.projects[i] == s.db.projects[i].(balance := s.db.projects[i].balance
                                                            + (if s.db.projects[i].id == projectId then refundAmount else 0.0)))
      && r.db.members == Filter(s.db.members, MemberIdIsNot(memberId))
      && (forall x :: x in r.db.members <==> x in s.db.members && x.id != memberId)
      && |r.db.logs| == |s.db.logs| + 1
      && r.db.logs[..|s.db.logs|] == s.db.logs
      && r.db.logs[|s.db.logs|] == LogRow(logId, projectId, None, Ms(now), Injection,
                                          "UNIT_DECOMMISSIONED: " + m.name, refundAmount)
  {
    if s.isProcessing then s
    else match FindMember(s.db.members, memberId)
      case None => Release(s, s.db)
      case Some(m) =>
        var refundAmount := if refund then m.totalSpent else 0.0;
        var db := Transact(s.db, DecommissionStatements(projectId, memberId, m, refundAmount, now, logId), fault);
        DecommissionEffect(s.db, projectId, memberId, m, refundAmount, now, logId);
        ReleaseRestores(s, db);
        Release(s, db)
  }

  function DecommissionStatements(projectId: string, memberId: string, m: MemberRow, refundAmount: real, now: int, logId: string): seq<Stmt>
  {
    [AdjustBalance(projectId, refundAmount),
     DeleteMemberRow(memberId),
     InsertLog(DecommissionEntry(projectId, m, refundAmount, now, logId))]
  }

  lemma DecommissionEffect(db: Db, projectId: string, memberId: string, m: MemberRow, refundAmount: real, now: int, logId: string)
    ensures var r := ExecAll(db, DecommissionStatements(projectId, memberId, m, refundAmount, now, logId));
      && r.projects == AddToBalance(db.projects, projectId, refundAmount)
      && r.members == Filter(db.members, MemberIdIsNot(memberId))
      && r.logs == db.logs + [DecommissionEntry(projectId, m, refundAmount, now, logId)]
  {
    ExecThree(db, AdjustBalance(projectId, refundAmount), DeleteMemberRow(memberId),
              InsertLog(DecommissionEntry(projectId, m, refundAmount, now, logId)));
  }

  // ---------------------------------------------------------------------------
  // Unlatched operations: no busy guard and no try/catch, so a failing
  // statement propagates before the refresh and leaves the state as it was.

  /** `addProject(name)`: a new empty project that becomes the active one. */
  function AddProject(s: Vault, name: string, id: string, fault: bool): (r: Vault)
    requires Fresh(s.db, id)
    ensures fault ==> r == s
    ensures !fault ==>
      && r.db == s.db.(projects := s.db.projects + [ProjectRow(id, name, 0.0)])
      && r.projects == Projection(r.db)
      && r.activeProjectId == Some(id)
      && (id != "" ==> r.savedId == Some(id))
      && r.isProcessing == s.isProcessing
  {
    if fault then s
    else
      var s1 := FetchProjects(s.(db := Exec(s.db, InsertProject(ProjectRow(id, name, 0.0)))));
      SetActiveProject(s1, Some(id))
  }

  /** `addMember(projectId, name, role)`: a member with nothing spent, joined now. */
  function AddMember(s: Vault, projectId: string, name: string, role: string,
                     memberId: string, now: int, fault: bool): (r: Vault)
    requires Fresh(s.db, memberId)
    ensures fault ==> r == s
    ensures !fault ==>
      && r.db == s.db.(members := s.db.members + [MemberRow(memberId, projectId, name, role, 0.0, Ms(now))])
      && r.projects == Projection(r.db)
      && r.isProcessing == s.isProcessing && r.savedId == s.savedId
      && r.activeProjectId == (if Present(s.savedId) && HasProject(s.db, s.savedId.value) then s.savedId else s.activeProjectId)
  {
    if fault then s
    else FetchProjects(s.(db := Exec(s.db, InsertMember(MemberRow(memberId, projectId, name, role, 0.0, Ms(now))))))
  }

  /** `deleteProject(id)`: the row goes and the store cascades to its members
      and logs; the active selection is cleared if it still names `id` after
      the refresh. */
  function DeleteProject(s: Vault, id: string, fault: bool): (r: Vault)
    ensures fault ==> r == s
    ensures !fault ==>
      && r.db == Db(Filter(s.db.projects, ProjectIdIsNot(id)),
                    Filter(s.db.members, MemberNotInProject(id)),
                    Filter(s.db.logs, LogNotInProject(id)))
      && (forall p :: p in r.db.projects <==> p in s.db.projects && p.id != id)
      && (forall m :: m in r.db.members <==> m in s.db.members && m.projectId != id)
      && (forall l :: l in r.db.logs <==> l in s.db.logs && l.projectId != id)
      && r.projects == Projection(r.db)
      && r.activeProjectId != Some(id)
      && r.isProcessing == s.isProcessing && r.savedId == s.savedId
    ensures !fault && !(Present(s.savedId) && HasProject(r.db, s.savedId.value)) ==>
      r.activeProjectId == (if s.activeProjectId == Some(id) then None else s.activeProjectId)
    ensures !fault && Present(s.savedId) && HasProject(r.db, s.savedId.value) ==>
      r.activeProjectId == s.savedId
  {
    if fault then s
    else
      var s1 := FetchProjects(s.(db := Exec(s.db, DeleteProjectRow(id))));
      if s1.activeProjectId == Some(id) then s1.(activeProjectId := None) else s1
  }

  /** The remembered selection survives a refresh: after choosing a project
      that exists, losing the active id (a reload) and fetching again brings
      the same project back. Choosing none forgets it, and a refresh then
      restores nothing. */
  lemma RememberedIsRestored(s: Vault, id: Option<string>, lost: Option<string>)
    ensures Present(id) && HasProject(s.db, id.value) ==>
              FetchProjects(SetActiveProject(s, id).(activeProjectId := lost)).activeProjectId == id
    ensures !Present(id) ==>
              FetchProjects(SetActiveProject(s, id).(activeProjectId := lost)).activeProjectId == lost
  {
  }
}

=== FILE: ledger.dfy ===
/** The ledger's global invariant and the theorems about the engine:
    - every project's balance is the sum of its logs' values, and primary keys
      stay unique, across every operation and any sequence of them;
    - voiding the log an `addExpense` just wrote restores the store exactly;
    - the shared split gives the whole expense away, `amount / n` per member. */
module Ledger {
  import opened Wrappers
  import opened Seqs
  import opened Store
  import opened ReadModel
  import opened Engine

  /** What every operation preserves: unique keys and balanced projects. */
  predicate Consistent(db: Db)
  {
    WellFormed(db) && Balanced(db)
  }

  lemma EmptyLedger()
    ensures Consistent(EmptyDb)
  {
  }

  // ---------------------------------------------------------------------------
  // Building blocks

  lemma AddToBalanceKeys(ps: seq<ProjectRow>, pid: string, delta: real)
    requires DistinctBy(ps, ProjectKey)
    ensures DistinctBy(AddToBalance(ps, pid, delta), ProjectKey)
  {
    var r := AddToBalance(ps, pid, delta);
    assert forall i :: 0 <= i < |r| ==> ProjectKey(r[i]) == ProjectKey(ps[i]);
  }

  lemma MemberUpdateKeys(ms: seq<MemberRow>, r: seq<MemberRow>)
    requires DistinctBy(ms, MemberKey)
    requires |r| == |ms| && forall i :: 0 <= i < |ms| ==> r[i].id == ms[i].id
    ensures DistinctBy(r, MemberKey)
  {
    assert forall i :: 0 <= i < |r| ==> MemberKey(r[i]) == MemberKey(ms[i]);
  }

  /** A balance change paired with a log row of the same value keeps the
      ledger balanced: the shape of `addExpense` and `deleteMember`. */
  lemma {:induction false} BalancedAfterEntry(db: Db, e: LogRow, members: seq<MemberRow>)
    requires Balanced(db)
    ensures Balanced(Db(AddToBalance(db.projects, e.projectId, e.value), members, db.logs + [e]))
  {
    var ps := AddToBalance(db.projects, e.projectId, e.value);
    forall p | p in ps
      ensures p.balance == LogTotal(db.logs + [e], p.id)
    {
      var i :| 0 <= i < |ps| && ps[i] == p;
      assert db.projects[i] in db.projects;
      LogTotalAppend(db.logs, [e], p.id);
      assert LogTotal([e], p.id) == if e.projectId == p.id then e.value else 0.0;
    }
  }

  /** `id` names no log, so no project has anything logged under it. */
  lemma {:induction false} LogTotalAbsent(ls: seq<LogRow>, id: string)
    requires forall l :: l in ls ==> l.projectId != id
    ensures LogTotal(ls, id) == 0.0
  {
    if ls != [] {
      assert ls[0] in ls;
      LogTotalAbsent(ls[1..], id);
    }
  }

  // ---------------------------------------------------------------------------
  // Every operation keeps the ledger

  lemma ExpenseStatementsKeepLedger(db: Db, projectId: string, amount: real, context: string, memberId: Option<string>,
                                    now: int, logId: string)
    requires Fresh(db, logId)
    requires Consistent(db)
    ensures Consistent(ExecAll(db, ExpenseStatements(db, projectId, amount, context, memberId, now, logId)))
  {
    var e := ExpenseEntry(projectId, amount, context, memberId, now, logId);
    AddExpenseEffect(db, projectId, amount, context, memberId, now, logId);
    var r := ExecAll(db, ExpenseStatements(db, projectId, amount, context, memberId, now, logId));
    AddToBalanceKeys(db.projects, projectId, -amount);
    MemberUpdateKeys(db.members, r.members);
    DistinctAppend(db.logs, e, LogKey);
    BalancedAfterEntry(db, e, r.members);
  }

  lemma AddExpenseKeepsLedger(s: Vault, projectId: string, amount: real, context: string, memberId: Option<string>,
                              now: int, logId: string, fault: bool)
    requires Fresh(s.db, logId)
    requires Consistent(s.db)
    ensures Consistent(AddExpense(s, projectId, amount, context, memberId, now, logId, fault).db)
  {
    if !s.isProcessing && !fault {
      ExpenseStatementsKeepLedger(s.db, projectId, amount, context, memberId, now, logId);
    }
  }

  lemma VoidStatementsKeepLedger(db: Db, projectId: string, l: LogRow, logId: string)
    requires Consistent(db)
    requires l in db.logs && l.id == logId && l.projectId == projectId
    ensures Consistent(ExecAll(db, VoidStatements(db, projectId, l, logId)))
  {
    var k :| 0 <= k < |db.logs| && db.logs[k] == l;
    VoidEffect(db, projectId, l, logId);
    var r := ExecAll(db, VoidStatements(db, projectId, l, logId));
    AddToBalanceKeys(db.projects, projectId, -l.value);
    MemberUpdateKeys(db.members, r.members);
    FilterDistinct(db.logs, LogIdIsNot(logId), LogKey);
    forall p | p in r.projects
      ensures p.balance == LogTotal(r.logs, p.id)
    {
      var i :| 0 <= i < |r.projects| && r.projects[i] == p;
      assert db.projects[i] in db.projects;
      LogTotalWithout(db.logs, k, p.id);
    }
  }

  lemma DeleteLogKeepsLedger(s: Vault, projectId: string, logId: string, fault: bool)
    requires Consistent(s.db)
    ensures Consistent(DeleteLog(s, projectId, logId, fault).db)
  {
    var found := FindLog(s.db.logs, logId, projectId);
    if !s.isProcessing && !fault && found.Some? {
      VoidStatementsKeepLedger(s.db, projectId, found.value, logId);
    }
  }

  lemma DecommissionStatementsKeepLedger(db: Db, projectId: string, memberId: string, m: MemberRow,
                                         refundAmount: real, now: int, logId: string)
    requires Fresh(db, logId)
    requires Consistent(db)
    ensures Consistent(ExecAll(db, DecommissionStatements(projectId, memberId, m, refundAmount, now, logId)))
  {
    var e := DecommissionEntry(projectId, m, refundAmount, now, logId);
    DecommissionEffect(db, projectId, memberId, m, refundAmount, now, logId);
    var r := ExecAll(db, DecommissionStatements(projectId, memberId, m, refundAmount, now, logId));
    AddToBalanceKeys(db.projects, projectId, refundAmount);
    FilterDistinct(db.members, MemberIdIsNot(memberId), MemberKey);
    DistinctAppend(db.logs, e, LogKey);
    BalancedAfterEntry(db, e, r.members);
  }

  lemma DeleteMemberKeepsLedger(s: Vault, projectId: string, memberId: string, refund: bool,
                                now: int, logId: string, fault: bool)
    requires Fresh(s.db, logId)
    requires Consistent(s.db)
    ensures Consistent(DeleteMember(s, projectId, memberId, refund, now, logId, fault).db)
  {
    var found := FindMember(s.db.members, memberId);
    if !s.isProcessing && !fault && found.Some? {
      var refundAmount := if refund then found.value.totalSpent else 0.0;
      DecommissionStatementsKeepLedger(s.db, projectId, memberId, found.value, refundAmount, now, logId);
    }
  }

  lemma AddProjectKeepsLedger(s: Vault, name: string, id: string, fault: bool)
    requires Fresh(s.db, id)
    requires Consistent(s.db)
    ensures Consistent(AddProject(s, name, id, fault).db)
  {
    if !fault {
      LogTotalAbsent(s.db.logs, id);
      DistinctAppend(s.db.projects, ProjectRow(id, name, 0.0), ProjectKey);
    }
  }

  lemma AddMemberKeepsLedger(s: Vault, projectId: string, name: string, role: string,
                             memberId: string, now: int, fault: bool)
    requires Fresh(s.db, memberId)
    requires Consistent(s.db)
    ensures Consistent(AddMember(s, projectId, name, role, memberId, now, fault).db)
  {
    if !fault {
      DistinctAppend(s.db.members, MemberRow(memberId, projectId, name, role, 0.0, Ms(now)), MemberKey);
    }
  }

  lemma CascadeKeepsLedger(db: Db, id: string)
    requires Consistent(db)
    ensures Consistent(Exec(db, DeleteProjectRow(id)))
  {
    var r := Exec(db, DeleteProjectRow(id));
    FilterDistinct(db.projects, ProjectIdIsNot(id), ProjectKey);
    FilterDistinct(db.members, MemberNotInProject(id), MemberKey);
    FilterDistinct(db.logs, LogNotInProject(id), LogKey);
    forall p | p in r.projects
      ensures p.balance == LogTotal(r.logs, p.id)
    {
      LogTotalOtherProject(db.logs, id, p.id);
    }
  }

  lemma DeleteProjectKeepsLedger(s: Vault, id: string, fault: bool)
    requires Consistent(s.db)
    ensures Consistent(DeleteProject(s, id, fault).db)
  {
    if !fault {
      CascadeKeepsLedger(s.db, id);
    }
  }

  // ---------------------------------------------------------------------------
  // Any sequence of operations

  /** One engine call, with the ids, clock reading and store outcome it sees. */
  datatype Op =
    | NewProject(name: string, id: string, fault: bool)
    | RemoveProject(id: string, fault: bool)
    | NewMember(projectId: string, name: string, role: string, newMemberId: string, now: int, fault: bool)
    | Decommission(projectId: string, memberId: string, refund: bool, now: int, logId: string, fault: bool)
    | Record(projectId: string, amount: real, context: string, payer: Option<string>, now: int, logId: string, fault: bool)
    | Void(projectId: string, logId: string, fault: bool)
    | Select(choice: Option<string>)
    | Fetch

  /** The ids an operation mints are fresh. */
  predicate Admissible(s: Vault, op: Op)
  {
    match op
    case NewProject(_, id, _) => Fresh(s.db, id)
    case NewMember(_, _, _, memberId, _, _) => Fresh(s.db, memberId)
    case Decommission(_, _, _, _, logId, _) => Fresh(s.db, logId)
    case Record(_, _, _, _, _, logId, _) => Fresh(s.db, logId)
    case _ => true
  }

  function Apply(s: Vault, op: Op): Vault
    requires Admissible(s, op)
  {
    match op
    case NewProject(name, id, fault) => AddProject(s, name, id, fault)
    case RemoveProject(id, fault) => DeleteProject(s, id, fault)
    case NewMember(projectId, name, role, memberId, now, fault) => AddMember(s, projectId, name, role, memberId, now, fault)
    case Decommission(projectId, memberId, refund, now, logId, fault) => DeleteMember(s, projectId, memberId, refund, now, logId, fault)
    case Record(projectId, amount, context, memberId, now, logId, fault) => AddExpense(s, projectId, amount, context, memberId, now, logId, fault)
    case Void(projectId, logId, fault) => DeleteLog(s, projectId, logId, fault)
    case Select(id) => SetActiveProject(s, id)
    case Fetch => FetchProjects(s)
  }

  predicate AdmissibleRun(s: Vault, ops: seq<Op>)
    decreases |ops|
  {
    ops == [] || (Admissible(s, ops[0]) && AdmissibleRun(Apply(s, ops[0]), ops[1..]))
  }

  function Run(s: Vault, ops: seq<Op>): Vault
    requires AdmissibleRun(s, ops)
    decreases |ops|
  {
    if ops == [] then s else Run(Apply(s, ops[0]), ops[1..])
  }

  lemma ApplyKeepsLedger(s: Vault, op: Op)
    requires Admissible(s, op)
    requires Consistent(s.db)
    ensures Consistent(Apply(s, op).db)
    ensures !s.isProcessing ==> !Apply(s, op).isProcessing
  {
    match op
    case NewProject(name, id, fault) => AddProjectKeepsLedger(s, name, id, fault);
    case RemoveProject(id, fault) => DeleteProjectKeepsLedger(s, id, fault);
    case NewMember(projectId, name, role, memberId, now, fault) => AddMemberKeepsLedger(s, projectId, name, role, memberId, now, fault);
    case Decommission(projectId, memberId, refund, now, logId, fault) => DeleteMemberKeepsLedger(s, projectId, memberId, refund, now, logId, fault);
    case Record(projectId, amount, context, memberId, now, logId, fault) => AddExpenseKeepsLedger(s, projectId, amount, context, memberId, now, logId, fault);
    case Void(projectId, logId, fault) => DeleteLogKeepsLedger(s, projectId, logId, fault);
    case Select(id) =>
    case Fetch =>
  }

  /** The balance invariant after any sequence of operations, and the
      processing latch released after every one of them. */
  lemma {:induction false} RunKeepsLedger(s: Vault, ops: seq<Op>)
    requires AdmissibleRun(s, ops)
    requires Consistent(s.db)
    ensures Consistent(Run(s, ops).db)
    ensures !s.isProcessing ==> !Run(s, ops).isProcessing
    decreases |ops|
  {
    if ops != [] {
      ApplyKeepsLedger(s, ops[0]);
      RunKeepsLedger(Apply(s, ops[0]), ops[1..]);
    }
  }

  // ---------------------------------------------------------------------------
  // Void is the inverse of a fresh expense

  lemma {:induction false} MemberCountSameProjects(a: seq<MemberRow>, b: seq<MemberRow>, pid: string)
    requires |a| == |b|
    requires forall i :: 0 <= i < |a| ==> a[i].projectId == b[i].projectId
    ensures MemberCount(a, pid) == MemberCount(b, pid)
  {
    if a != [] {
      MemberCountStep(a, pid);
      MemberCountStep(b, pid);
      MemberCountSameProjects(a[1..], b[1..], pid);
    }
  }

  lemma ShareThenReversal(ms: seq<MemberRow>, after: seq<MemberRow>, projectId: string, amount: real, context: string,
                          memberId: Option<string>, now: int, logId: string, m: MemberRow)
    requires MemberCount(after, projectId) == MemberCount(ms, projectId)
    ensures Share(ms, projectId, amount, memberId, m)
          + Reversal(after, projectId, ExpenseEntry(projectId, amount, context, memberId, now, logId), m) == 0.0
  {
    var e := ExpenseEntry(projectId, amount, context, memberId, now, logId);
    var n := MemberCount(ms, projectId);
    if amount <= 0.0 {
      assert e.kind == Injection;
    } else if Present(memberId) {
      assert e.kind == Expense && e.memberId == memberId && e.value == -amount;
    } else {
      assert e.kind == Expense && e.memberId == None && e.value == -amount;
      if n > 0 && m.projectId == projectId {
        var k := n as real;
        assert Share(ms, projectId, amount, memberId, m) == amount / k;
        assert Reversal(after, projectId, e, m) == (-amount) / k;
        assert (-amount) / k == -(amount / k);
      }
    }
  }

  lemma FindFreshEntry(ls: seq<LogRow>, e: LogRow)
    requires forall l :: l in ls ==> l.id != e.id
    ensures FindLog(ls + [e], e.id, e.projectId) == Some(e)
  {
    assert e in ls + [e];
  }

  lemma BalanceRoundTrip(ps: seq<ProjectRow>, projectId: string, amount: real)
    ensures AddToBalance(AddToBalance(ps, projectId, -amount), projectId, amount) == ps
  {
    var r := AddToBalance(AddToBalance(ps, projectId, -amount), projectId, amount);
    assert forall i :: 0 <= i < |ps| ==> r[i] == ps[i];
  }

  lemma CreditRoundTrip(ms: seq<MemberRow>, mid: seq<MemberRow>, after: seq<MemberRow>, projectId: string, amount: real,
                        context: string, memberId: Option<string>, now: int, logId: string)
    requires |mid| == |ms| && |after| == |ms|
    requires forall i :: 0 <= i < |ms| ==>
               mid[i] == ms[i].(totalSpent := ms[i].totalSpent + Share(ms, projectId, amount, memberId, ms[i]))
    requires forall i :: 0 <= i < |ms| ==>
               after[i] == mid[i].(totalSpent := mid[i].totalSpent
                 + Reversal(mid, projectId, ExpenseEntry(projectId, amount, context, memberId, now, logId), mid[i]))
    ensures after == ms
  {
    MemberCountSameProjects(mid, ms, projectId);
    forall i | 0 <= i < |ms|
      ensures after[i] == ms[i]
    {
      var m := ms[i];
      var e := ExpenseEntry(projectId, amount, context, memberId, now, logId);
      ShareThenReversal(ms, mid, projectId, amount, context, memberId, now, logId, m);
      assert Reversal(mid, projectId, e, mid[i]) == Reversal(mid, projectId, e, m);
    }
  }

  lemma LogsRoundTrip(ls: seq<LogRow>, e: LogRow)
    requires forall l :: l in ls ==> l.id != e.id
    ensures Filter(ls + [e], LogIdIsNot(e.id)) == ls
  {
    FilterAppend(ls, [e], LogIdIsNot(e.id));
    FilterKeepsAll(ls, LogIdIsNot(e.id));
    assert Filter([e], LogIdIsNot(e.id)) == [];
  }

  lemma VoidUndoesExpenseStatements(db: Db, projectId: string, amount: real, context: string,
                                    memberId: Option<string>, now: int, logId: string)
    requires Fresh(db, logId)
    ensures var db1 := ExecAll(db, ExpenseStatements(db, projectId, amount, context, memberId, now, logId));
            var e := ExpenseEntry(projectId, amount, context, memberId, now, logId);
            && FindLog(db1.logs, logId, projectId) == Some(e)
            && ExecAll(db1, VoidStatements(db1, projectId, e, logId)) == db
  {
    var e := ExpenseEntry(projectId, amount, context, memberId, now, logId);
    var db1 := ExecAll(db, ExpenseStatements(db, projectId, amount, context, memberId, now, logId));
    AddExpenseEffect(db, projectId, amount, context, memberId, now, logId);
    FindFreshEntry(db.logs, e);
    var db2 := ExecAll(db1, VoidStatements(db1, projectId, e, logId));
    VoidEffect(db1, projectId, e, logId);
    BalanceRoundTrip(db.projects, projectId, amount);
    CreditRoundTrip(db.members, db1.members, db2.members, projectId, amount, context, memberId, now, logId);
    LogsRoundTrip(db.logs, e);
  }

  /** Voiding the log `addExpense` just wrote, with nothing in between,
      restores every balance, every member total and the log table. */
  lemma VoidUndoesExpense(s: Vault, projectId: string, amount: real, context: string,
                          memberId: Option<string>, now: int, logId: string)
    requires Fresh(s.db, logId)
    requires !s.isProcessing
    ensures var s1 := AddExpense(s, projectId, amount, context, memberId, now, logId, false);
            var s2 := DeleteLog(s1, projectId, logId, false);
            s2.db == s.db && !s2.isProcessing
  {
    VoidUndoesExpenseStatements(s.db, projectId, amount, context, memberId, now, logId);
  }

  // ---------------------------------------------------------------------------
  // Split fairness

  /** The store a completed `addExpense` leaves is its statements' effect. */
  lemma AddExpenseStore(s: Vault, projectId: string, amount: real, context: string,
                        memberId: Option<string>, now: int, logId: string)
    requires Fresh(s.db, logId) && !s.isProcessing
    ensures AddExpense(s, projectId, amount, context, memberId, now, logId, false).db
         == ExecAll(s.db, ExpenseStatements(s.db, projectId, amount, context, memberId, now, logId))
  {
  }

  lemma SplitTimesCount(n: nat, amount: real)
    requires n > 0
    ensures (n as real) * (amount / (n as real)) == amount
  {
  }

  /** Crediting every member of a project with `amount / n` adds `amount`. */
  lemma SplitCreditSums(ms: seq<MemberRow>, pid: string, amount: real)
    requires MemberCount(ms, pid) > 0
    ensures SpentTotal(CreditByProject(ms, pid, amount / (MemberCount(ms, pid) as real)), pid)
         == SpentTotal(ms, pid) + amount
  {
    var n := MemberCount(ms, pid);
    var part := amount / (n as real);
    SpentAfterProjectCredit(ms, pid, part);
    RepeatIsProduct(n, part);
    SplitTimesCount(n, amount);
  }

  lemma SharedSplitStatements(db: Db, projectId: string, amount: real, context: string,
                              memberId: Option<string>, now: int, logId: string)
    requires amount > 0.0 && !Present(memberId) && MemberCount(db.members, projectId) > 0
    ensures SpentTotal(ExecAll(db, ExpenseStatements(db, projectId, amount, context, memberId, now, logId)).members, projectId)
         == SpentTotal(db.members, projectId) + amount
  {
    var part := amount / (MemberCount(db.members, projectId) as real);
    var credit := CreditProjectMembers(projectId, part);
    var debit := AdjustBalance(projectId, -amount);
    var record := InsertLog(ExpenseEntry(projectId, amount, context, memberId, now, logId));
    assert ExpenseStatements(db, projectId, amount, context, memberId, now, logId) == [debit, credit, record];
    ExecThree(db, debit, credit, record);
    SplitCreditSums(db.members, projectId, amount);
  }

  /** A shared expense over n > 0 members raises the project's spent total by
      exactly the amount (each member's part being `amount / n`). */
  lemma SharedSplitIsFair(s: Vault, projectId: string, amount: real, context: string,
                          memberId: Option<string>, now: int, logId: string)
    requires Fresh(s.db, logId)
    requires !s.isProcessing && amount > 0.0 && !Present(memberId)
    requires MemberCount(s.db.members, projectId) > 0
    ensures var r := AddExpense(s, projectId, amount, context, memberId, now, logId, false);
            SpentTotal(r.db.members, projectId) == SpentTotal(s.db.members, projectId) + amount
  {
    AddExpenseStore(s, projectId, amount, context, memberId, now, logId);
    SharedSplitStatements(s.db, projectId, amount, context, memberId, now, logId);
  }

  lemma DirectChargeStatements(db: Db, projectId: string, amount: real, context: string,
                               memberId: Option<string>, now: int, logId: string, pid: string)
    requires DistinctBy(db.members, MemberKey)
    requires amount > 0.0 && Present(memberId)
    ensures SpentTotal(ExecAll(db, ExpenseStatements(db, projectId, amount, context, memberId, now, logId)).members, pid)
         == SpentTotal(db.members, pid)
              + (if exists m :: m in db.members && m.id == memberId.value && m.projectId == pid then amount else 0.0)
  {
    ExecThree(db, AdjustBalance(projectId, -amount), CreditMember(memberId.value, amount),
              InsertLog(ExpenseEntry(projectId, amount, context, memberId, now, logId)));
    SpentAfterMemberCredit(db.members, memberId.value, amount, pid);
  }

  /** A direct expense raises its member's project total by exactly the amount,
      and no other project's total. */
  lemma DirectChargeIsWhole(s: Vault, projectId: string, amount: real, context: string,
                            memberId: Option<string>, now: int, logId: string, pid: string)
    requires Fresh(s.db, logId) && Consistent(s.db)
    requires !s.isProcessing && amount > 0.0 && Present(memberId)
    ensures var r := AddExpense(s, projectId, amount, context, memberId, now, logId, false);
            SpentTotal(r.db.members, pid) == SpentTotal(s.db.members, pid)
              + (if exists m :: m in s.db.members && m.id == memberId.value && m.projectId == pid then amount else 0.0)
  {
    AddExpenseStore(s, projectId, amount, context, memberId, now, logId);
    DirectChargeStatements(s.db, projectId, amount, context, memberId, now, logId, pid);
  }

}

=== FILE: read_model.dfy ===
/** The read model of `fetchProjects` (src/store/useVault.ts:50-97): the three
    tables are read and regrouped into `Project -> members[], logs[]`, with the
    snake_case columns renamed to the client's field names. */
module ReadModel {
  import opened Wrappers
  import opened Seqs
  import opened Store

  /** A member as the client sees it (`useVault.ts` interface `Member`). */
  datatype Member = Member(id: string, name: string, role: string, totalSpent: real, createdAt: Stamp)

  /** A log as the client sees it (`useVault.ts` interface `Log`): no project id
      and no participant count. */
  datatype Log = Log(id: string, timestamp: Stamp, kind: LogKind, context: string, value: real, memberId: Option<string>)

  datatype Project = Project(id: string, name: string, balance: real, members: seq<Member>, logs: seq<Log>)

  function MemberView(m: MemberRow): Member
  {
    Member(m.id, m.name, m.role, m.totalSpent, m.createdAt)
  }

  function LogView(l: LogRow): Log
  {
    Log(l.id, l.timestamp, l.kind, l.context, l.value, l.memberId)
  }

  // ---------------------------------------------------------------------------
  // ORDER BY timestamp DESC

  /** `a` may come before `b` in `ORDER BY timestamp DESC`: later first, and
      timestamps that are not dates last. */
  predicate Newer(a: Stamp, b: Stamp)
  {
    match (a, b)
    case (Ms(x), Ms(y)) => x >= y
    case (Ms(_), Invalid) => true
    case (Invalid, Ms(_)) => false
    case (Invalid, Invalid) => true
  }

  predicate NewerRow(a: LogRow, b: LogRow)
  {
    Newer(a.timestamp, b.timestamp)
  }

  predicate NewerLog(a: Log, b: Log)
  {
    Newer(a.timestamp, b.timestamp)
  }

  /** Places `x` into an already newest-first sequence. */
  function Insert(x: LogRow, s: seq<LogRow>): (r: seq<LogRow>)
    ensures multiset(r) == multiset(s) + multiset{x}
  {
    if s == [] then [x]
    else if NewerRow(x, s[0]) then [x] + s
    else
      assert s == [s[0]] + s[1..];
      [s[0]] + Insert(x, s[1..])
  }

  /** The rows of the `logs` table newest first. */
  function SortNewestFirst(s: seq<LogRow>): (r: seq<LogRow>)
    ensures multiset(r) == multiset(s)
    ensures Ordered(r, NewerRow)
  {
    if s == [] then []
    else
      var rest := SortNewestFirst(s[1..]);
      InsertOrdered(s[0], rest);
      assert s == [s[0]] + s[1..];
      Insert(s[0], rest)
  }

  lemma {:induction false} InsertOrdered(x: LogRow, s: seq<LogRow>)
    requires Ordered(s, NewerRow)
    ensures Ordered(Insert(x, s), NewerRow)
  {
    if s != [] && !NewerRow(x, s[0]) {
      assert Ordered(s[1..], NewerRow);
      InsertOrdered(x, s[1..]);
      var tail := Insert(x, s[1..]);
      var r := [s[0]] + tail;
      forall i, j | 0 <= i < j < |r|
        ensures NewerRow(r[i], r[j])
      {
        if i == 0 {
          var y := r[j];
          assert y == tail[j - 1];
          assert y in multiset(tail);
          assert y in multiset(s[1..]) || y == x;
          if y != x {
            assert y in s[1..];
            var k :| 0 <= k < |s[1..]| && s[1..][k] == y;
            assert s[k + 1] == y;
          }
        } else {
          assert r[i] == tail[i - 1] && r[j] == tail[j - 1];
        }
      }
    }
  }

  // ---------------------------------------------------------------------------
  // Grouping

  function ProjectView(p: ProjectRow, members: seq<MemberRow>, newestFirst: seq<LogRow>): Project
  {
    Project(p.id, p.name, p.balance,
            Map(Filter(members, MemberInProject(p.id)), MemberView),
            Map(Filter(newestFirst, LogInProject(p.id)), LogView))
  }

  /** The `formatted` list `fetchProjects` stores: one entry per `projects`
      row, in table order, each holding exactly the members and logs whose
      `project_id` is that project's id, logs newest first. */
  function Projection(db: Db): (r: seq<Project>)
    ensures |r| == |db.projects|
    ensures forall i :: 0 <= i < |r| ==>
      && r[i].id == db.projects[i].id
      && r[i].name == db.projects[i].name
      && r[i].balance == db.projects[i].balance
    ensures forall i :: 0 <= i < |r| ==> |r[i].members| == MemberCount(db.members, r[i].id)
    ensures forall i, m :: 0 <= i < |r| && m in db.members && m.projectId == r[i].id ==>
      MemberView(m) in r[i].members
    ensures forall i, v :: 0 <= i < |r| && v in r[i].members ==>
      exists m :: m in db.members && m.projectId == r[i].id && v == MemberView(m)
    ensures forall i :: 0 <= i < |r| ==> |r[i].logs| == |Filter(db.logs, LogInProject(r[i].id))|
    ensures forall i, l :: 0 <= i < |r| && l in db.logs && l.projectId == r[i].id ==>
      LogView(l) in r[i].logs
    ensures forall i, v :: 0 <= i < |r| && v in r[i].logs ==>
      exists l :: l in db.logs && l.projectId == r[i].id && v == LogView(l)
    ensures forall i :: 0 <= i < |r| ==> Ordered(r[i].logs, NewerLog)
  {
    var sorted := SortNewestFirst(db.logs);
    var r := seq(|db.projects|, i requires 0 <= i < |db.projects| => ProjectView(db.projects[i], db.members, sorted));
    ProjectionFacts(db, sorted, r);
    r
  }

  lemma ProjectionFacts(db: Db, sorted: seq<LogRow>, r: seq<Project>)
    requires sorted == SortNewestFirst(db.logs)
    requires |r| == |db.projects|
    requires forall i :: 0 <= i < |r| ==> r[i] == ProjectView(db.projects[i], db.members, sorted)
    ensures forall i :: 0 <= i < |r| ==> |r[i].logs| == |Filter(db.logs, LogInProject(r[i].id))|
    ensures forall i, l :: 0 <= i < |r| && l in db.logs && l.projectId == r[i].id ==>
      LogView(l) in r[i].logs
    ensures forall i, v :: 0 <= i < |r| && v in r[i].logs ==>
      exists l :: l in db.logs && l.projectId == r[i].id && v == LogView(l)
    ensures forall i :: 0 <= i < |r| ==> Ordered(r[i].logs, NewerLog)
    ensures forall i, m :: 0 <= i < |r| && m in db.members && m.projectId == r[i].id ==>
      MemberView(m) in r[i].members
    ensures forall i, v :: 0 <= i < |r| && v in r[i].members ==>
      exists m :: m in db.members && m.projectId == r[i].id && v == MemberView(m)
  {
    forall i | 0 <= i < |r|
      ensures |r[i].logs| == |Filter(db.logs, LogInProject(r[i].id))|
      ensures Ordered(r[i].logs, NewerLog)
    {
      var pid := db.projects[i].id;
      FilterSameMultiset(sorted, db.logs, LogInProject(pid));
      FilterOrdered(sorted, LogInProject(pid), NewerRow);
    }
    forall i, l | 0 <= i < |r| && l in db.logs && l.projectId == r[i].id
      ensures LogView(l) in r[i].logs
    {
      assert l in multiset(sorted);
      var sel := Filter(sorted, LogInProject(r[i].id));
      assert l in sel;
      var k :| 0 <= k < |sel| && sel[k] == l;
      assert r[i].logs[k] == LogView(l);
    }
    forall i, v | 0 <= i < |r| && v in r[i].logs
      ensures exists l :: l in db.logs && l.projectId == r[i].id && v == LogView(l)
    {
      var sel := Filter(sorted, LogInProject(r[i].id));
      var k :| 0 <= k < |r[i].logs| && r[i].logs[k] == v;
      assert sel[k] in sel;
      assert sel[k] in multiset(db.logs);
      assert v == LogView(sel[k]);
    }
    forall i, m | 0 <= i < |r| && m in db.members && m.projectId == r[i].id
      ensures MemberView(m) in r[i].members
    {
      var sel := Filter(db.members, MemberInProject(r[i].id));
      assert m in sel;
      var k :| 0 <= k < |sel| && sel[k] == m;
      assert r[i].members[k] == MemberView(m);
    }
    forall i, v | 0 <= i < |r| && v in r[i].members
      ensures exists m :: m in db.members && m.projectId == r[i].id && v == MemberView(m)
    {
      var sel := Filter(db.members, MemberInProject(r[i].id));
      var k :| 0 <= k < |r[i].members| && r[i].members[k] == v;
      assert sel[k] in sel;
    }
  }
}

=== FILE: seqs.dfy ===
/** Generic sequence helpers shared by the table, projection and audit models. */
module Seqs {

  /** The elements of `s` that satisfy `keep`, in their original order
      (a SQL `WHERE` or a JavaScript `Array.filter`). */
  function Filter<T(!new)>(s: seq<T>, keep: T -> bool): (r: seq<T>)
    ensures |r| <= |s|
    ensures forall x :: x in r <==> x in s && keep(x)
  {
    if s == [] then []
    else if keep(s[0]) then [s[0]] + Filter(s[1..], keep)
    else Filter(s[1..], keep)
  }

  /** `f` applied to every element (a JavaScript `Array.map`). */
  function Map<A, B>(s: seq<A>, f: A -> B): (r: seq<B>)
    ensures |r| == |s|
    ensures forall i :: 0 <= i < |s| ==> r[i] == f(s[i])
  {
    seq(|s|, i requires 0 <= i < |s| => f(s[i]))
  }

  /** Filtering keeps everything when every element passes. */
  lemma {:induction false} FilterKeepsAll<T(!new)>(s: seq<T>, keep: T -> bool)
    requires forall x :: x in s ==> keep(x)
    ensures Filter(s, keep) == s
  {
    if s != [] {
      FilterKeepsAll(s[1..], keep);
    }
  }

  lemma {:induction false} FilterAppend<T(!new)>(a: seq<T>, b: seq<T>, keep: T -> bool)
    ensures Filter(a + b, keep) == Filter(a, keep) + Filter(b, keep)
  {
    if a == [] {
      assert a + b == b;
    } else {
      assert (a + b)[0] == a[0];
      assert (a + b)[1..] == a[1..] + b;
      FilterAppend(a[1..], b, keep);
    }
  }

  /** Two tests that agree on every element of `s` select the same elements. */
  lemma {:induction false} FilterCongruent<T(!new)>(s: seq<T>, f: T -> bool, g: T -> bool)
    requires forall x :: x in s ==> f(x) == g(x)
    ensures Filter(s, f) == Filter(s, g)
  {
    if s != [] {
      FilterCongruent(s[1..], f, g);
    }
  }

  /** No two elements of `s` share a key (a primary-key constraint). */
  predicate DistinctBy<T, K(==)>(s: seq<T>, key: T -> K)
  {
    forall i, j :: 0 <= i < j < |s| ==> key(s[i]) != key(s[j])
  }

  lemma {:induction false} FilterDistinct<T(!new), K>(s: seq<T>, keep: T -> bool, key: T -> K)
    requires DistinctBy(s, key)
    ensures DistinctBy(Filter(s, keep), key)
  {
    if s != [] {
      FilterDistinct(s[1..], keep, key);
      var rest := Filter(s[1..], keep);
      if keep(s[0]) {
        var r := [s[0]] + rest;
        forall i, j | 0 <= i < j < |r|
          ensures key(r[i]) != key(r[j])
        {
          if i == 0 {
            assert r[j] in s[1..];
            var k :| 0 <= k < |s[1..]| && s[1..][k] == r[j];
            assert s[k + 1] == r[j];
          } else {
            assert r[i] == rest[i - 1] && r[j] == rest[j - 1];
          }
        }
      }
    }
  }

  lemma DistinctAppend<T, K>(s: seq<T>, x: T, key: T -> K)
    requires DistinctBy(s, key)
    requires forall y :: y in s ==> key(y) != key(x)
    ensures DistinctBy(s + [x], key)
  {
    var r := s + [x];
    forall i, j | 0 <= i < j < |r|
      ensures key(r[i]) != key(r[j])
    {
      if j == |s| {
        assert r[i] in s;
      } else {
        assert r[i] == s[i] && r[j] == s[j];
      }
    }
  }

  /** Every element comes no later than every element after it under `before`. */
  predicate Ordered<T>(s: seq<T>, before: (T, T) -> bool)
  {
    forall i, j :: 0 <= i < j < |s| ==> before(s[i], s[j])
  }

  lemma {:induction false} FilterOrdered<T(!new)>(s: seq<T>, keep: T -> bool, before: (T, T) -> bool)
    requires Ordered(s, before)
    ensures Ordered(Filter(s, keep), before)
  {
    if s != [] {
      FilterOrdered(s[1..], keep, before);
      var rest := Filter(s[1..], keep);
      if keep(s[0]) {
        var r := [s[0]] + rest;
        forall i, j | 0 <= i < j < |r|
          ensures before(r[i], r[j])
        {
          if i == 0 {
            assert r[j] in s[1..];
            var k :| 0 <= k < |s[1..]| && s[1..][k] == r[j];
            assert s[k + 1] == r[j];
          } else {
            assert r[i] == rest[i - 1] && r[j] == rest[j - 1];
          }
        }
      }
    }
  }

  /** Filtering two permutations of each other gives sequences of equal length. */
  lemma FilterSameMultiset<T(!new)>(a: seq<T>, b: seq<T>, keep: T -> bool)
    requires multiset(a) == multiset(b)
    ensures |Filter(a, keep)| == |Filter(b, keep)|
  {
    FilterMultiset(a, keep);
    FilterMultiset(b, keep);
    assert multiset(Filter(a, keep)) == multiset(Filter(b, keep)) by {
      forall x ensures multiset(Filter(a, keep))[x] == multiset(Filter(b, keep))[x] { }
    }
    assert |multiset(Filter(a, keep))| == |Filter(a, keep)|;
  }

  lemma {:induction false} FilterMultiset<T(!new)>(s: seq<T>, keep: T -> bool)
    ensures forall x :: multiset(Filter(s, keep))[x] == if keep(x) then multiset(s)[x] else 0
  {
    if s != [] {
      FilterMultiset(s[1..], keep);
      assert s == [s[0]] + s[1..];
    }
  }
}

=== FILE: store.dfy ===
/** The relational store behind the ledger: the `projects`, `members` and
    `logs` tables of src/lib/db.ts, the SQL statements the engine issues
    against them, and transactions that either apply every statement or,
    on any failure, roll back to the state before `BEGIN TRANSACTION`. */
module Store {
  import opened Wrappers
  import opened Seqs

  /** A stored timestamp as the client reads it back through
      `new Date(text).getTime()`: milliseconds since the epoch, or `Invalid`
      when the text is not a date (JavaScript's NaN). */
  datatype Stamp = Ms(ms: int) | Invalid

  /** The two log types the engine writes. */
  datatype LogKind = Expense | Injection

  /** JavaScript truthiness of an optional id: `undefined`, `null` and the empty
      string are all false. The expense form passes "" for "shared". */
  predicate Present(id: Option<string>)
  {
    id.Some? && id.value != ""
  }

  datatype ProjectRow = ProjectRow(id: string, name: string, balance: real)

  datatype MemberRow = MemberRow(
    id: string, projectId: string, name: string, role: string,
    totalSpent: real, createdAt: Stamp)

  /** A `logs` row. The engine never writes a participant count, so the
      model has none. */
  datatype LogRow = LogRow(
    id: string, projectId: string, memberId: Option<string>, timestamp: Stamp,
    kind: LogKind, context: string, value: real)

  /** The three tables, each in insertion (rowid) order. */
  datatype Db = Db(projects: seq<ProjectRow>, members: seq<MemberRow>, logs: seq<LogRow>)

  const EmptyDb := Db([], [], [])

  /** The statements the engine issues. */
  datatype Stmt =
    | AdjustBalance(projectId: string, delta: real)              // UPDATE projects SET balance = balance + delta WHERE id
    | CreditMember(memberId: string, delta: real)                // UPDATE members SET total_spent = total_spent + delta WHERE id
    | CreditProjectMembers(projectId: string, delta: real)       // ... WHERE project_id
    | InsertProject(project: ProjectRow)
    | InsertMember(member: MemberRow)
    | InsertLog(log: LogRow)
    | DeleteMemberRow(memberId: string)
    | DeleteLogRow(logId: string)
    | DeleteProjectRow(projectId: string)                         // cascades to members and logs

  // Row selectors, named so that every use of one denotes the same function.

  function ProjectIdIsNot(id: string): ProjectRow -> bool { (p: ProjectRow) => p.id != id }
  function MemberIdIsNot(id: string): MemberRow -> bool { (m: MemberRow) => m.id != id }
  function MemberInProject(pid: string): MemberRow -> bool { (m: MemberRow) => m.projectId == pid }
  function MemberNotInProject(pid: string): MemberRow -> bool { (m: MemberRow) => m.projectId != pid }
  function LogIdIsNot(id: string): LogRow -> bool { (l: LogRow) => l.id != id }
  function LogInProject(pid: string): LogRow -> bool { (l: LogRow) => l.projectId == pid }
  function LogNotInProject(pid: string): LogRow -> bool { (l: LogRow) => l.projectId != pid }

  function ProjectKey(p: ProjectRow): string { p.id }
  function MemberKey(m: MemberRow): string { m.id }
  function LogKey(l: LogRow): string { l.id }

  function AddToBalance(ps: seq<ProjectRow>, pid: string, delta: real): seq<ProjectRow>
  {
    seq(|ps|, i requires 0 <= i < |ps| =>
      if ps[i].id == pid then ps[i].(balance := ps[i].balance + delta) else ps[i])
  }

  function CreditById(ms: seq<MemberRow>, mid: string, delta: real): seq<MemberRow>
  {
    seq(|ms|, i requires 0 <= i < |ms| =>
      if ms[i].id == mid then ms[i].(totalSpent := ms[i].totalSpent + delta) else ms[i])
  }

  function CreditByProject(ms: seq<MemberRow>, pid: string, delta: real): seq<MemberRow>
  {
    seq(|ms|, i requires 0 <= i < |ms| =>
      if ms[i].projectId == pid then ms[i].(totalSpent := ms[i].totalSpent + delta) else ms[i])
  }

  /** One statement's effect. Only the project foreign keys cascade on delete;
      inserts do not check references, and `member_id` is a weak reference
      that deleting a member leaves dangling. */
  function Exec(db: Db, st: Stmt): Db
  {
    match st
    case AdjustBalance(pid, delta) => db.(projects := AddToBalance(db.projects, pid, delta))
    case CreditMember(mid, delta) => db.(members := CreditById(db.members, mid, delta))
    case CreditProjectMembers(pid, delta) => db.(members := CreditByProject(db.members, pid, delta))
    case InsertProject(p) => db.(projects := db.projects + [p])
    case InsertMember(m) => db.(members := db.members + [m])
    case InsertLog(l) => db.(logs := db.logs + [l])
    case DeleteMemberRow(mid) => db.(members := Filter(db.members, MemberIdIsNot(mid)))
    case DeleteLogRow(lid) => db.(logs := Filter(db.logs, LogIdIsNot(lid)))
    case DeleteProjectRow(pid) =>
      Db(Filter(db.projects, ProjectIdIsNot(pid)),
         Filter(db.members, MemberNotInProject(pid)),
         Filter(db.logs, LogNotInProject(pid)))
  }

  function ExecAll(db: Db, stmts: seq<Stmt>): Db
    decreases |stmts|
  {
    if stmts == [] then db else ExecAll(Exec(db, stmts[0]), stmts[1..])
  }

  lemma ExecTwo(db: Db, a: Stmt, b: Stmt)
    ensures ExecAll(db, [a, b]) == Exec(Exec(db, a), b)
  {
    assert [a, b][1..] == [b];
    assert [b][1..] == [];
    assert ExecAll(db, [a, b]) == ExecAll(Exec(db, a), [b]);
    assert ExecAll(Exec(db, a), [b]) == ExecAll(Exec(Exec(db, a), b), []);
  }

  lemma ExecThree(db: Db, a: Stmt, b: Stmt, c: Stmt)
    ensures ExecAll(db, [a, b, c]) == Exec(Exec(Exec(db, a), b), c)
  {
    assert [a, b, c][1..] == [b, c];
    ExecTwo(Exec(db, a), b, c);
  }

  /** `BEGIN TRANSACTION; stmts; COMMIT`, or `ROLLBACK` when any step fails. */
  function Transact(db: Db, stmts: seq<Stmt>, fault: bool): (r: Db)
    ensures fault ==> r == db
    ensures !fault ==> r == ExecAll(db, stmts)
  {
    if fault then db else ExecAll(db, stmts)
  }

  // ---------------------------------------------------------------------------
  // Aggregates

  /** Sum of the values of the logs of project `pid`. */
  function LogTotal(ls: seq<LogRow>, pid: string): real
  {
    if ls == [] then 0.0
    else (if ls[0].projectId == pid then ls[0].value else 0.0) + LogTotal(ls[1..], pid)
  }

  /** Number of members of project `pid` (`SELECT id FROM members WHERE project_id`). */
  function MemberCount(ms: seq<MemberRow>, pid: string): nat
  {
    |Filter(ms, MemberInProject(pid))|
  }

  /** Sum of the `total_spent` of the members of project `pid`. */
  function SpentTotal(ms: seq<MemberRow>, pid: string): real
  {
    if ms == [] then 0.0
    else (if ms[0].projectId == pid then ms[0].totalSpent else 0.0) + SpentTotal(ms[1..], pid)
  }

  /** The first row a `SELECT ... WHERE id = $1 AND project_id = $2` returns. */
  function FindLog(ls: seq<LogRow>, lid: string, pid: string): (r: Option<LogRow>)
    ensures r.Some? ==> r.value in ls && r.value.id == lid && r.value.projectId == pid
    ensures r.None? <==> forall l :: l in ls ==> !(l.id == lid && l.projectId == pid)
  {
    if ls == [] then None
    else if ls[0].id == lid && ls[0].projectId == pid then Some(ls[0])
    else FindLog(ls[1..], lid, pid)
  }

  /** The first row a `SELECT ... FROM members WHERE id = $1` returns. */
  function FindMember(ms: seq<MemberRow>, mid: string): (r: Option<MemberRow>)
    ensures r.Some? ==> r.value in ms && r.value.id == mid
    ensures r.None? <==> forall m :: m in ms ==> m.id != mid
  {
    if ms == [] then None
    else if ms[0].id == mid then Some(ms[0])
    else FindMember(ms[1..], mid)
  }

  // ---------------------------------------------------------------------------
  // Store invariants

  /** Primary keys are unique in every table. */
  predicate WellFormed(db: Db)
  {
    && DistinctBy(db.projects, ProjectKey)
    && DistinctBy(db.members, MemberKey)
    && DistinctBy(db.logs, LogKey)
  }

  /** The ledger invariant: every project's balance is the sum of its logs. */
  predicate Balanced(db: Db)
  {
    forall p :: p in db.projects ==> p.balance == LogTotal(db.logs, p.id)
  }

  /** `id` occurs nowhere in the store, as a key or as a reference: what a
      fresh `crypto.randomUUID()` provides. */
  predicate Fresh(db: Db, id: string)
  {
    && (forall p :: p in db.projects ==> p.id != id)
    && (forall m :: m in db.members ==> m.id != id && m.projectId != id)
    && (forall l :: l in db.logs ==> l.id != id && l.projectId != id && l.memberId != Some(id))
  }

  // ---------------------------------------------------------------------------
  // Lemmas on the aggregates

  lemma {:induction false} LogTotalAppend(a: seq<LogRow>, b: seq<LogRow>, pid: string)
    ensures LogTotal(a + b, pid) == LogTotal(a, pid) + LogTotal(b, pid)
  {
    if a == [] {
      assert a + b == b;
    } else {
      assert (a + b)[1..] == a[1..] + b;
      LogTotalAppend(a[1..], b, pid);
    }
  }

  /** Removing a log by its (unique) id takes exactly its value off its project's total. */
  lemma {:induction false} LogTotalWithout(ls: seq<LogRow>, k: nat, pid: string)
    requires DistinctBy(ls, LogKey)
    requires k < |ls|
    ensures LogTotal(Filter(ls, LogIdIsNot(ls[k].id)), pid)
         == LogTotal(ls, pid) - (if ls[k].projectId == pid then ls[k].value else 0.0)
  {
    var lid := ls[k].id;
    if k == 0 {
      forall l | l in ls[1..] ensures LogIdIsNot(lid)(l)
      {
        var j :| 0 <= j < |ls[1..]| && ls[1..][j] == l;
        assert ls[j + 1] == l;
      }
      FilterKeepsAll(ls[1..], LogIdIsNot(lid));
    } else {
      assert ls[0].id != lid;
      assert ls[1..][k - 1] == ls[k];
      LogTotalWithout(ls[1..], k - 1, pid);
    }
  }

  /** Cascading a project's deletion leaves every other project's total unchanged. */
  lemma {:induction false} LogTotalOtherProject(ls: seq<LogRow>, gone: string, pid: string)
    requires pid != gone
    ensures LogTotal(Filter(ls, LogNotInProject(gone)), pid) == LogTotal(ls, pid)
  {
    if ls != [] {
      LogTotalOtherProject(ls[1..], gone, pid);
    }
  }

  /** `delta` added up `n` times. */
  function Repeat(n: nat, delta: real): real
  {
    if n == 0 then 0.0 else delta + Repeat(n - 1, delta)
  }

  lemma {:induction false} RepeatIsProduct(n: nat, delta: real)
    ensures Repeat(n, delta) == (n as real) * delta
  {
    if n > 0 {
      RepeatIsProduct(n - 1, delta);
      assert (n as real) * delta == ((n - 1) as real) * delta + delta;
    }
  }

  /** Crediting every member of a project by `delta` raises the project's spent
      total by `delta` once per member. */
  lemma {:induction false} SpentAfterProjectCredit(ms: seq<MemberRow>, pid: string, delta: real)
    ensures SpentTotal(CreditByProject(ms, pid, delta), pid)
         == SpentTotal(ms, pid) + Repeat(MemberCount(ms, pid), delta)
  {
    if ms != [] {
      var r := CreditByProject(ms, pid, delta);
      assert r[1..] == CreditByProject(ms[1..], pid, delta);
      SpentAfterProjectCredit(ms[1..], pid, delta);
      MemberCountStep(ms, pid);
    } else {
      assert CreditByProject(ms, pid, delta) == [];
    }
  }

  lemma MemberCountStep(ms: seq<MemberRow>, pid: string)
    requires ms != []
    ensures MemberCount(ms, pid) == MemberCount(ms[1..], pid) + (if ms[0].projectId == pid then 1 else 0)
  {
  }

  /** Crediting one member id touches only the members that carry it. */
  lemma {:induction false} SpentAfterMemberCredit(ms: seq<MemberRow>, mid: string, delta: real, pid: string)
    requires DistinctBy(ms, MemberKey)
    ensures SpentTotal(CreditById(ms, mid, delta), pid)
         == SpentTotal(ms, pid) + (if exists m :: m in ms && m.id == mid && m.projectId == pid then delta else 0.0)
  {
    if ms != [] {
      var r := CreditById(ms, mid, delta);
      assert r[1..] == CreditById(ms[1..], mid, delta);
      FilterDistinct(ms, MemberIdIsNot(ms[0].id), MemberKey);
      assert DistinctBy(ms[1..], MemberKey);
      SpentAfterMemberCredit(ms[1..], mid, delta, pid);
      if ms[0].id == mid {
        forall m | m in ms[1..] ensures m.id != mid
        {
          var j :| 0 <= j < |ms[1..]| && ms[1..][j] == m;
          assert ms[j + 1] == m;
        }
      }
    }
  }

}

=== FILE: wrappers.dfy ===
/** Optional values, standing for the nullable and optional fields of the ledger
    (a log's `member_id`, the saved active-project id, ...). */
module Wrappers {

  datatype Option<+T> = None | Some(value: T)

}
